=== FILE: README.md ===
# RDP gateway core, modelled in Dafny

This project models the logic of a browser RDP gateway. It has two parts.

The **browser side** is the `IronRdpSession` controller. It loads the RDP engine, which is compiled to WebAssembly. It connects through an RDCleanPath proxy and turns DOM keyboard, mouse and wheel events into engine input transactions. It also includes the pure helpers of the generated wasm-bindgen glue.

The **server side** is a Rust service with four pieces:
- the user store over SQLite;
- JWT authentication: login, `me` and password change;
- administrator-only user management;
- the first steps of the WebSocket-to-RDP proxy handshake.

Everything is pure functions over explicit state:

- `Bridge` (`bridge.dfy`): the controller as a `World`. A `World` holds the controller's fields, the log of calls made on the engine, and the log of notices delivered to the host's status, error and terminate callbacks.
  - Every operation maps a `World` to a `World`.
  - The asynchronous `connect` is split at its two `await`s, so inputs can be interleaved with a running session.
  - The engine's outcomes (module load, negotiation, run loop) are parameters.
- `UserStore` (`store.dfy`): the `users` table as a sequence of rows in rowid order.
  - The table's invariant (`Valid`) is the `PRIMARY KEY` on `id` plus the `UNIQUE` on `username`.
  - Each store method follows its SQL text.
  - Password hashes, fresh uuids and `datetime('now')` are parameters.
- `Auth` (`auth.dfy`): bearer-token extraction, the local `chrono` shim with `i64` wrap-around, `login`, `me` and `change_password`.
  - JWT encoding and decoding and bcrypt verification are the total functions of a `Crypto` value.
- `Users` (`users.dfy`): the five `/users` handlers.
  - Each handler returns the table afterwards and either a response or an `ApiError` (HTTP status plus message).
- `Proxy` (`proxy.dfy`): the RDCleanPath handshake fragments:
  - the first-message loop, both as a functional specification and as a loop proved equal to it;
  - the Request match;
  - the TPKT length (section 6 of RFC 1006);
  - the X.224 response buffer;
  - the TLS host name and the server address.
- `WasmGlue` (`glue.dfy`):
  - the scalar-value check and `codePointAt(0)` for Unicode key events;
  - the optional-u32 sentinel;
  - pointer hand-over in `__destroy_into_raw` and its consumers;
  - the enum tables;
  - the `makeMutClosure` reference count;
  - the load-once guard of `initSync`/`__wbg_init`.
- `Common` (`common.dfy`): `Option`, `Result`, and the string operations the server relies on:
  - `strip_prefix`;
  - `contains`;
  - `trim` over the Unicode White_Space set;
  - SQLite BINARY text order.

The user table is a sequence, not a map keyed by id. `update_user` and `delete_user` address rows by `id`, but `login` looks rows up by username. A sequence keeps both lookups computable. `ORDER BY created_at` has no tie-breaker, so the order among rows with equal `created_at` is unspecified, and the listing contract does not fix one.

## Model

| member | source | states |
|---|---|---|
| Bridge.Scancode | web/rdp/ironrdp-bridge.js:8-39 | The key-code table: each listed `KeyboardEvent.code` has a nonzero 16-bit scancode (E0-prefixed codes from 0xE000); any other code has none. |
| Bridge.KeyTransaction | web/rdp/ironrdp-bridge.js:224-231 | An unmapped code yields no transaction, exactly when the table has no entry. A mapped code yields exactly one event carrying the table value: a press on key down, a release on key up. |
| Bridge.Rotation | web/rdp/ironrdp-bridge.js:273 | The wheel rotation is always ±1, and negative exactly when the delta is positive. |
| Bridge.WheelTransaction | web/rdp/ironrdp-bridge.js:270-280 | One event per nonzero axis, vertical before horizontal, each with unit 0. The sign of each event follows its own axis's delta. Both deltas zero gives the empty transaction. |
| Bridge.CtrlAltDelUsesTableCodes | web/rdp/ironrdp-bridge.js:145-150 | The fixed six-event sequence presses the table's ControlLeft, AltLeft and Delete codes in that order, then releases them in reverse order. |
| Bridge.Report | web/rdp/ironrdp-bridge.js:182-184 | A status reaches the host only when a status callback is registered; nothing else changes. |
| Bridge.OnStatus | web/rdp/ironrdp-bridge.js:176 | Stores the status callback: a truthy value registers it, and null or nothing unregisters it. Nothing else changes. |
| Bridge.OnError | web/rdp/ironrdp-bridge.js:177 | Stores the error callback: a truthy value registers it, and null or nothing unregisters it. Nothing else changes. |
| Bridge.OnTerminate | web/rdp/ironrdp-bridge.js:178 | Stores the terminate callback: a truthy value registers it, and null or nothing unregisters it. Nothing else changes. |
| Bridge.UnregisteredStatusSilent | web/rdp/ironrdp-bridge.js:176-184 | After `onStatus(null)`, no status reaches the host. |
| Bridge.StatusTextsDistinct | web/rdp/ironrdp-bridge.js:113-130 | The host receives "connecting", "connected", "disconnected" or "error". Distinct statuses give distinct strings. |
| Bridge.FreshDropsInput | web/rdp/ironrdp-bridge.js:42-51 | The constructed controller satisfies the invariant. Every input sequence leaves it, the engine log and the host log as they were. |
| Bridge.Init | web/rdp/ironrdp-bridge.js:56-63 | A second `init` does nothing. The first one either throws the load failure with nothing changed, or marks the module loaded after exactly one `setup('INFO')`. |
| Bridge.BuildRequest | web/rdp/ironrdp-bridge.js:82-98 | The builder gets the options verbatim and the token "koder". Width and height fall back to 1280×720 when absent or 0. An empty domain is left out. |
| Bridge.Fail | web/rdp/ironrdp-bridge.js:128-135 | The catch block deactivates the session, reports `error`, passes the failure's text to the error callback, and rethrows the same failure. It makes no engine call. |
| Bridge.ConnectStart | web/rdp/ironrdp-bridge.js:77-116 | Before `init`, `connect` throws with no notice and no engine call. Otherwise it binds the canvas, reports `connecting` and asks the engine to negotiate. |
| Bridge.SetupInputHandlers | web/rdp/ironrdp-bridge.js:186-206 | Always replaces the handler functions with a fresh generation. It attaches that generation to the bound canvas. With no canvas it throws after the replacement, and nothing is attached. |
| Bridge.FailedSetupStrandsListeners | web/rdp/ironrdp-bridge.js:186-195 | After a setup that threw, a later removal targets the new generation, so listeners attached earlier stay on their canvas. |
| Bridge.Negotiated | web/rdp/ironrdp-bridge.js:115-122 | A successful negotiation sets `session` and `active`, reports `connected`, installs listeners and starts the run loop. With no canvas, setup throws into the catch block: the handler generation has still advanced and no listener is added. A failed negotiation goes through the catch block. The controller invariant is preserved. |
| Bridge.RunEnded | web/rdp/ironrdp-bridge.js:122-135 | A clean end deactivates, reports `disconnected`, then hands the termination info to the terminate callback. A failure goes through the catch block. |
| Bridge.Connect | web/rdp/ironrdp-bridge.js:77-136 | Statuses come in this order:<br>• before `init`: nothing;<br>• a clean run: `connecting`, `connected`, `disconnected`;<br>• a failed negotiation: `connecting`, `error`, with the error text once and the same failure rethrown;<br>• a failed run: `connecting`, `connected`, `error`.<br>The session is always inactive when the call settles. |
| Bridge.HandleKey | web/rdp/ironrdp-bridge.js:219-233 | The key handler submits nothing unless session, active and wasm all hold and the code is mapped. Otherwise it submits exactly the key's one-event transaction. |
| Bridge.HandleMouseMove | web/rdp/ironrdp-bridge.js:235-248 | Behind the input gate and with a canvas bound, submits exactly one mouse-move event. With no canvas bound, measuring it throws and nothing is submitted. |
| Bridge.HandleMouseButton | web/rdp/ironrdp-bridge.js:250-261 | Behind the input gate, submits exactly one event for the button: a press on down, a release on up. |
| Bridge.HandleWheel | web/rdp/ironrdp-bridge.js:263-283 | Behind the input gate, always submits the wheel transaction, which is empty when both deltas are zero. |
| Bridge.CtrlAltDel | web/rdp/ironrdp-bridge.js:141-152 | Behind the input gate, submits the fixed Ctrl+Alt+Del transaction as a single call. |
| Bridge.Resize | web/rdp/ironrdp-bridge.js:168-172 | The engine is resized only when session and active hold. |
| Bridge.RemoveInputHandlers | web/rdp/ironrdp-bridge.js:208-217 | With no canvas bound this is a no-op. Otherwise only the current generation's listeners are removed. |
| Bridge.Shutdown | web/rdp/ironrdp-bridge.js:157-163 | The engine's shutdown is called only for an active session, which ends inactive. Listener removal is always attempted. |
| Bridge.StepKeepsInactive | web/rdp/ironrdp-bridge.js:141-172 | No host input activates a session. While none is active, no input reaches the engine or the host. |
| Bridge.InactiveDropsAllInput | web/rdp/ironrdp-bridge.js:141-283 | Input gate over any input sequence: once inactive, every key, move, button, wheel, Ctrl+Alt+Del, resize and shutdown is dropped. |
| Bridge.ShutdownClosesGate | web/rdp/ironrdp-bridge.js:157-163 | After `shutdown`, no later host input reaches the engine, unless a `connect` still awaiting its negotiation later succeeds (see Bridge.ShutdownDuringNegotiationReopens). |
| Bridge.ShutdownDuringNegotiationReopens | web/rdp/ironrdp-bridge.js:115-118 | `shutdown` while a `connect` is negotiating does not cancel it. When the negotiation succeeds, the gate opens again and a key reaches the engine. |
| Bridge.NoInputAfterDisconnect | web/rdp/ironrdp-bridge.js:122-124 | After a session ends cleanly, no later host input reaches the engine, unless a second `connect` still awaiting its negotiation later succeeds (see Bridge.DisconnectDuringNegotiationReopens). |
| Bridge.DisconnectDuringNegotiationReopens | web/rdp/ironrdp-bridge.js:115-124 | A clean end of one session while a second `connect` is negotiating does not keep the gate closed. When that negotiation succeeds, a key reaches the engine again. |
| Bridge.StepPreservesWf | web/rdp/ironrdp-bridge.js:141-172 | Each input keeps the controller invariant: active implies session, session implies a loaded module, and listener generations stay in range. |
| Bridge.StepsPreserveWf | web/rdp/ironrdp-bridge.js:141-283 | The controller invariant holds after any sequence of inputs. |
| Bridge.KeyDuringRunReachesEngine | web/rdp/ironrdp-bridge.js:115-122 | A mapped key pressed while the run loop is pending reaches the engine as exactly one one-event transaction. |
| UserStore.ToPublic | rdp-proxy/src/db.rs:27-36 | The public view copies id, username, display name, role and both timestamps. |
| UserStore.ToPublicForgetsOnlyHash | rdp-proxy/src/db.rs:27-36 | Two rows have the same public view exactly when they differ at most in the password hash. |
| UserStore.GetUserByUsername | rdp-proxy/src/db.rs:85-102 | Returns a row exactly when one has that username. In a valid table, any row with that username is the one returned. |
| UserStore.GetUserById | rdp-proxy/src/db.rs:104-121 | Returns a row exactly when one has that id. In a valid table, any row with that id is the one returned. |
| UserStore.ListUsers | rdp-proxy/src/db.rs:123-140 | The public view of every row, each exactly once (as a multiset), ordered by `created_at` under byte-wise text order. |
| UserStore.Insert | rdp-proxy/src/db.rs:58-66 | The insert succeeds exactly when neither the id nor the username is taken, and appends the row. A refusal is a constraint error whose text contains "UNIQUE". The invariant is kept. |
| UserStore.Initialize | rdp-proxy/src/db.rs:55-83 | A non-empty table is unchanged. An empty table gains exactly one row: "root", role "admin", display name "Administrador", the fresh id and the hash. A hasher failure is reported with the table unchanged. |
| UserStore.CreateUser | rdp-proxy/src/db.rs:142-158 | Succeeds exactly when hashing succeeds and neither the username nor the fresh id is taken. It then appends one row and returns its public view with the given fields. On failure the table is unchanged, and a taken username is a UNIQUE error. |
| UserStore.UpdateWhereId | rdp-proxy/src/db.rs:170-186 | One `UPDATE ... WHERE id` changes only the rows with that id: the one column and `updated_at`. The invariant is kept. |
| UserStore.Patch | rdp-proxy/src/db.rs:169-187 | Fields passed as present are replaced and absent ones kept. `updated_at` moves exactly when some statement ran. Id, username and `created_at` never change. |
| UserStore.StatementsPatch | rdp-proxy/src/db.rs:169-187 | The three optional statements together patch exactly the rows with that id and keep every id and username in place. |
| UserStore.UpdateUser | rdp-proxy/src/db.rs:160-190 | Every row with that id is patched and the others are unchanged. The result is `None` exactly when the id is absent. A hasher failure is an error raised after the earlier statements have already applied. |
| UserStore.DeleteUser | rdp-proxy/src/db.rs:192-196 | Returns true exactly when a row had that id. Afterwards no row has it and every other row remains. |
| UserStore.WithoutValid | rdp-proxy/src/db.rs:192-196 | Deleting rows keeps the table's uniqueness of ids and usernames. |
| UserStore.UpdatePassword | rdp-proxy/src/db.rs:198-206 | Only the hash and `updated_at` of the matching row change. An unknown id changes nothing and still succeeds. |
| Auth.HeaderText | rdp-proxy/src/auth.rs:70 | A header value has text exactly when every byte is tab or visible ASCII; the text is then those bytes. |
| Auth.BearerToken | rdp-proxy/src/auth.rs:68-71 | A token exists exactly when the header is text that starts with "Bearer ", and it is the text after that prefix. A missing or non-text header gives none. |
| Auth.BearerTokenRoundTrip | rdp-proxy/src/auth.rs:68-72 | Sending "Bearer " plus a visible-ASCII token yields exactly that token. |
| Auth.NoPrefixNoToken | rdp-proxy/src/auth.rs:71-72 | A header without the exact prefix yields no token. |
| Auth.ExtractAuth | rdp-proxy/src/auth.rs:64-82 | No token gives 401 "Token ausente". A decode or validation failure gives 401 "Token inválido ou expirado". Otherwise the decoded claims are returned unchanged. |
| Auth.Hours | rdp-proxy/src/auth.rs:186-188 | `Duration::hours` is the span in seconds while it fits in an `i64`. |
| Auth.CheckedAddSigned | rdp-proxy/src/auth.rs:174-176 | Never returns `None`, so the `unwrap` in `create_token` cannot fail. In range it is plain addition. |
| Auth.TokenExpiry | rdp-proxy/src/auth.rs:45-48 | The `exp` claim is exactly one day (86400 s) after the clock reading whenever that fits in an `i64`, and always fits in a `usize`. |
| Auth.TokenClaims | rdp-proxy/src/auth.rs:44-55 | The claims `create_token` signs carry the user's id, username and role verbatim, and the expiry `TokenExpiry` gives for the clock reading. |
| Auth.Login | rdp-proxy/src/auth.rs:84-108 | An unknown username and a wrong password get the identical 401 "Usuário ou senha incorretos". A hasher error while verifying gives 500. For a matching row with the right password, the result is decided by encoding that row's claims: a token plus the row's public view, or 500 when encoding fails. |
| Auth.Me | rdp-proxy/src/auth.rs:110-123 | Authentication failures pass through. A subject no longer in the table gives 404. In a valid table, an existing subject gets the public view of its row. |
| Auth.ChangePassword | rdp-proxy/src/auth.rs:131-157 | For a well-formed JSON body: a vanished subject gives 404, and a wrong current password gives 400; both leave the table unchanged. A verifier error gives 500 with the table unchanged. With the right current password, the change succeeds exactly when the new password was hashed. Success stores the new hash and `updated_at` for `claims.sub` only. |
| Users.RequireAdmin | rdp-proxy/src/users.rs:16-25 | `extract_auth` failures pass through unchanged. An authenticated non-admin gets 403. It succeeds exactly for role "admin". |
| Users.ListUsersHandler | rdp-proxy/src/users.rs:27-39 | The admin check comes first. Then every user's public view, ordered by creation time. |
| Users.CreateErrorResponse | rdp-proxy/src/users.rs:70-77 | A store error whose text contains "UNIQUE" becomes 409 "Usuário já existe"; any other becomes 500. |
| Users.CreateUserHandler | rdp-proxy/src/users.rs:49-80 | For a well-formed JSON body, the checks run in this order:<br>• admin check;<br>• a blank username (all white space) or an empty password gives 400;<br>• a role other than admin/user gives 400;<br>• a taken username gives 409.<br>Past the first three checks, the insert succeeds exactly when the hasher succeeded and neither the username nor the id is taken. A hasher failure is mapped like a store error. Success is 201 with one new row under the untrimmed username, role defaulting to "user" and display name to "". Every failure leaves the table unchanged. |
| Users.GetUserHandler | rdp-proxy/src/users.rs:82-96 | Admin check first, then 404 for an unknown id. In a valid table, an existing id gets the public view of its row. |
| Users.UpdateUserHandler | rdp-proxy/src/users.rs:105-131 | For a well-formed JSON body, the admin check comes first. An invalid role gives 400 before the store is touched. An unknown id gives 404 with nothing changed. Past the role check, the update succeeds exactly when the id exists and any new password was hashed; a hasher failure gives 500. Success patches exactly that row and returns its public view. |
| Users.DeleteUserHandler | rdp-proxy/src/users.rs:133-154 | Admin check first. Deleting one's own id gives 400 with the store unchanged. An unknown id gives 404. Success is reported exactly when the row existed, and afterwards it is gone. |
| Proxy.ScanSpec | rdp-proxy/src/rdp.rs:32-45 | The request is the first Binary message. Everything before it is Text, Ping or Pong. "Closed before request" means either the loop read a Close, or it reached the end of the stream having read only Text, Ping and Pong. A transport error ends the loop with its text, and a failed Pong send ends it on that Ping. |
| Proxy.ScanAnswersPings | rdp-proxy/src/rdp.rs:34-37 | With a working write half, each Ping read before the request is answered by a Pong with the same payload, in order, and nothing else is sent. |
| Proxy.ReadRequest | rdp-proxy/src/rdp.rs:32-45 | The reading loop, item by item, returns exactly what `Scan` describes: the same replies, the same number of items read and the same result. |
| Proxy.ExtractRequest | rdp-proxy/src/rdp.rs:55-69 | Succeeds exactly for the Request variant, giving its destination and X.224 bytes. Any other variant sends the general-error PDU and fails. |
| Proxy.TpktLength | rdp-proxy/src/rdp.rs:96 | The length is a 16-bit value read from header bytes 2 and 3. |
| Proxy.TpktRoundTrip | rdp-proxy/src/rdp.rs:96 | Decoding inverts the big-endian TPKT encoding of section 6 of RFC 1006, and the length depends only on bytes 2 and 3. |
| Proxy.ResponseBufferAsWritten | rdp-proxy/src/rdp.rs:97-104 | The code as written crashes exactly when the announced length is below 4. |
| Proxy.ResponseBuffer | rdp-proxy/src/rdp.rs:97-104 | The corrected buffer: a length below 4 is an error. Otherwise the buffer has exactly the announced length and starts with the header. Its body is the next bytes of the stream, read only when the length exceeds 4. |
| Proxy.ShortTpktPanics | rdp-proxy/src/rdp.rs:97-98 | A header announcing 2 octets crashes the code as written; the corrected buffer reports it instead. |
| Proxy.ResponseBufferAgrees | rdp-proxy/src/rdp.rs:97-104 | Wherever the code as written does not crash, the corrected buffer gives the same result. |
| Proxy.Hostname | rdp-proxy/src/rdp.rs:114 | The TLS host name is the longest prefix of the destination without ':', i.e. everything before the first ':'. |
| Proxy.HostnameOfHostPort | rdp-proxy/src/rdp.rs:114 | For "host:port" the host name is the host; a destination without ':' is its own host name. |
| Proxy.ServerAddr | rdp-proxy/src/rdp.rs:78-81 | The reported server address is the peer address when the socket gives one, else the destination. |
| WasmGlue.AssertChar | web/rdp/ironrdp_web.js:1357-1359 | For non-negative numbers, it passes exactly the Unicode scalar values (definition D76 of section 3.9 of the Unicode Standard). `undefined` passes. |
| WasmGlue.FirstCodePoint | web/rdp/ironrdp_web.js:232 | `codePointAt(0)`: `undefined` exactly for empty text. A code point above 0xFFFF only comes from a surrogate pair; otherwise it is the first code unit. |
| WasmGlue.UnicodeKey | web/rdp/ironrdp_web.js:231-246 | The first code point is validated before it reaches the engine. The event fails exactly for a lone surrogate, and any code point passed on is a scalar value. |
| WasmGlue.UnicodeKeyRoundTrip | web/rdp/ironrdp_web.js:231-246 | Text starting with a character's UTF-16 encoding produces an event for exactly that character. |
| WasmGlue.LoneSurrogateRefused | web/rdp/ironrdp_web.js:231-236 | A lone surrogate at the start of the text is refused. |
| WasmGlue.EncodeOptionU32 | web/rdp/ironrdp_web.js:560 | An absent value maps to 0x100000001. Any other value maps to `value >>> 0`, a u32 congruent to it, which never equals the sentinel. |
| WasmGlue.DecodeOptionU32 | web/rdp/ironrdp_web.js:412-417 | The sentinel decodes to `undefined`; every other number decodes to itself. |
| WasmGlue.OptionU32RoundTrip | web/rdp/ironrdp_web.js:1495-1497 | Decoding inverts encoding for absent values and every u32. |
| WasmGlue.DestroyIntoRaw | web/rdp/ironrdp_web.js:176-181 | Returns the object's pointer and leaves it 0; every other object is untouched. |
| WasmGlue.Consume | web/rdp/ironrdp_web.js:300-304 | `addEvent`, `applyInputs` and `desktopSize` throw, changing nothing, on an argument of the wrong class. Otherwise they hand its pointer to the engine and zero it. |
| WasmGlue.SingleUse | web/rdp/ironrdp_web.js:509-512 | A wrapper fed to consumers repeatedly hands over its pointer to the first one only; every later consumer receives 0. |
| WasmGlue.ErrorKindNumber | web/rdp/ironrdp_web.js:360-389 | The seven error-kind names map to numbers 0 to 6. |
| WasmGlue.ErrorKindName | web/rdp/ironrdp_web.js:360-389 | Numbers 0 to 6, and only those, have a name. |
| WasmGlue.ErrorKindInverse | web/rdp/ironrdp_web.js:360-389 | The name-to-number and number-to-name entries are inverse in both directions. |
| WasmGlue.RotationUnitNumber | web/rdp/ironrdp_web.js:482-486 | Pixel, Line and Page map to numbers 0 to 2. |
| WasmGlue.RotationUnitName | web/rdp/ironrdp_web.js:482-486 | Numbers 0 to 2, and only those, have a name. |
| WasmGlue.RotationUnitInverse | web/rdp/ironrdp_web.js:482-486 | The two directions of the rotation-unit table are inverse. |
| WasmGlue.MakeMutClosure | web/rdp/ironrdp_web.js:1499-1500 | A new closure holds its environment with one reference and no destructor call. |
| WasmGlue.Unref | web/rdp/ironrdp_web.js:1516-1522 | Dropping a reference runs the destructor, with the current environment, exactly when the count reaches 0. |
| WasmGlue.Invoke | web/rdp/ironrdp_web.js:1501-1515 | During a call the environment is 0 and the count one higher. A call that does not drop the closure leaves the state as it found it. A call that drops the last reference destroys the closure after restoring the environment. |
| WasmGlue.DestroyedOnce | web/rdp/ironrdp_web.js:1499-1525 | Any number of calls followed by the one drop destroys the closure exactly once, with its original environment. |
| WasmGlue.Init | web/rdp/ironrdp_web.js:1652-1669 | An already loaded instance is returned as it is, without reloading. A failed instantiation is raised and nothing is kept. A created instance is stored and counted once before its start function runs. The call succeeds exactly when the start succeeds. |
| WasmGlue.InitIdempotent | web/rdp/ironrdp_web.js:1652-1695 | After a successful load, any later call returns the same instance and never instantiates again. |
| WasmGlue.StartFailureSticks | web/rdp/ironrdp_web.js:1607-1615 | When the start function throws, the call fails, but the half-started instance stays stored. The next call returns it as loaded, without instantiating again. |

## Left out

- I/O and time are parameters, not effects. The engine's asynchronous results, the hasher, uuid generation, `datetime('now')`, the system clock, JWT signing and decoding, and bcrypt verification all enter as values or total functions.
- The TCP connect, the TLS handshake, certificate extraction, DER coding and the relay under `tokio::select!` in `rdp-proxy/src/rdp.rs` are I/O and concurrency, so they are not modelled. Their results are parameters where the handshake fragments need them.
- Concurrency is not modelled. That covers the `Mutex` around the connection, concurrent requests, and two overlapping `init` or `__wbg_init` calls both loading the module before either finishes.
- SQLite failures other than the two uniqueness constraints are not modelled: a locked database, I/O errors, row decoding in `list_users`. The handlers' 500 "Erro interno" and "Erro ao excluir" for those paths are therefore not modelled either.
- Bridge.HandleMouseMove takes coordinates already scaled to the desktop. The floating-point scaling with `Math.round` is left out.
- Bridge.Describe gives the text of `e.toString()` only for the fixed messages the controller itself throws. An engine error's text is a parameter. The TypeError from a missing canvas is shown as just "TypeError", not the runtime's full message such as "TypeError: Cannot read properties of null (reading 'addEventListener')".
- Bridge.KeyTransaction and Bridge.HandleKey cover only the table's own keys. In JavaScript, looking up an inherited name such as "constructor" or "toString" in the object literal is not `undefined`, so a synthetic event with such a code reaches the engine. No real `KeyboardEvent.code` is such a name.
- Users.CreateUserHandler, Users.UpdateUserHandler, Auth.ChangePassword and Auth.Login take the request body already parsed. The `Json` extractor runs before the handler body. Its rejection of a malformed body (400, 415 or 422) therefore comes before the authentication and admin checks, and is not modelled.
- Auth.TokenExpiry takes the clock reading as a natural number of seconds. The panic of `duration_since(UNIX_EPOCH).unwrap()` for a clock set before 1970 is not modelled.
- WasmGlue.EncodeOptionU32 takes integer arguments only. For fractional numbers and NaN, `>>> 0` truncates toward zero or yields 0, which is not modelled.
- DOM specifics are not modelled: `preventDefault`, `tabIndex`/focus, the cursor-style and clipboard callbacks, and the exact listener functions (tracked as a generation number per installed set).
- wasm-bindgen marshalling and runtime plumbing are not modelled: string and array passing, `FinalizationRegistry`, `debugString`, the browser import shims, and WebAssembly fetch and instantiation.
- WasmGlue.AssertChar treats only integer arguments. `codePointAt` never yields a fractional or negative number.
- Every `wasm.*` engine export is foreign code. Only the call and its arguments are recorded.
- `rdp-proxy/src/main.rs` (routing, environment defaults, start-up) is configuration, not part of this model.
- Auth.Hours and Auth.CheckedAddSigned state exact arithmetic only inside the `i64` range. Outside it, the model wraps as a release build does. A debug build would panic instead.

## Findings

| source | as written | input that shows it | evidently intended | confidence | as-written member | corrected member |
|---|---|---|---|---|---|---|
| rdp-proxy/src/rdp.rs:97-98 | The response buffer is allocated with the length announced in the TPKT header, then its first 4 bytes are overwritten with the header. A length below 4 makes that slice out of bounds, and the connection task panics. | An RDP server answering the X.224 request with the header bytes 03 00 00 02 | Reject a TPKT length below the 4-byte header with an error, as for any other malformed response | not executed | Proxy.ResponseBufferAsWritten | Proxy.ResponseBuffer |

=== FILE: auth.dfy ===
/** The authentication endpoints: bearer-token extraction, token issuing
    with the local clock shim, login, `me` and password change. Token
    signing and checking and password verification are foreign code; they
    enter as the total functions of a `Crypto` value. */
module Auth {
  import opened Common
  import opened UserStore

  /** The JWT payload. */
  datatype Claims = Claims(sub: string, username: string, role: string, exp: int)

  /** An error response: HTTP status and the `error` message of its body. */
  datatype ApiError = ApiError(status: int, message: string)

  /** The foreign primitives, each as the function it computes for this
      server's secret: token decoding with default validation (signature and
      expiry), token encoding, and password verification against a stored
      hash. `None` is the primitive's error. */
  datatype Crypto = Crypto(
    decode: string -> Option<Claims>,
    encode: Claims -> Option<string>,
    verify: (string, string) -> Option<bool>)

  /** The request headers this server reads: the first `Authorization`
      value, as raw bytes, if any. */
  datatype Headers = Headers(authorization: Option<seq<Byte>>)

  const MissingToken := ApiError(401, "Token ausente")
  const InvalidToken := ApiError(401, "Token inválido ou expirado")
  const BadCredentials := ApiError(401, "Usuário ou senha incorretos")
  const InternalError := ApiError(500, "Erro interno")
  const TokenFailure := ApiError(500, "Erro ao gerar token")
  const UserNotFound := ApiError(404, "Usuário não encontrado")
  const WrongCurrentPassword := ApiError(400, "Senha atual incorreta")
  const PasswordUpdateFailure := ApiError(500, "Erro ao atualizar senha")

  /** Bytes `HeaderValue::to_str` accepts: tab and visible ASCII. */
  predicate IsVisibleAscii(b: Byte) {
    b == 9 || 32 <= b < 127
  }

  /** `HeaderValue::to_str`: the text of a header made only of visible ASCII. */
  function HeaderText(v: seq<Byte>): (r: Option<string>)
    ensures r.Some? <==> forall i :: 0 <= i < |v| ==> IsVisibleAscii(v[i])
    ensures r.Some? ==> |r.value| == |v| && forall i :: 0 <= i < |v| ==> r.value[i] as int == v[i]
  {
    if forall i :: 0 <= i < |v| ==> IsVisibleAscii(v[i])
    then Some(seq(|v|, i requires 0 <= i < |v| => v[i] as char))
    else None
  }

  /** The bytes of an ASCII string, as a client would send it. */
  function AsciiBytes(s: string): (r: seq<Byte>)
    requires forall i :: 0 <= i < |s| ==> s[i] as int < 256
    ensures |r| == |s| && forall i :: 0 <= i < |s| ==> r[i] == s[i] as int
  {
    seq(|s|, i requires 0 <= i < |s| => s[i] as int)
  }

  /** The token: the header text after the exact prefix "Bearer ". */
  function BearerToken(h: Headers): (r: Option<string>)
    ensures r.Some? ==> h.authorization.Some? && HeaderText(h.authorization.value) == Some("Bearer " + r.value)
    ensures h.authorization.None? ==> r.None?
    ensures h.authorization.Some? && HeaderText(h.authorization.value).None? ==> r.None?
    ensures (&& h.authorization.Some? && HeaderText(h.authorization.value).Some?
             && IsPrefix("Bearer ", HeaderText(h.authorization.value).value)) ==> r.Some?
  {
    match h.authorization
    case None => None
    case Some(v) =>
      match HeaderText(v)
      case None => None
      case Some(text) => StripPrefix("Bearer ", text)
  }

  /** A header carrying "Bearer " and a visible-ASCII token yields exactly
      that token; a header without the prefix yields none. */
  lemma BearerTokenRoundTrip(token: string)
    requires forall i :: 0 <= i < |token| ==> ' ' <= token[i] <= '~'
    ensures BearerToken(Headers(Some(AsciiBytes("Bearer " + token)))) == Some(token)
  {
    var s := "Bearer " + token;
    var v := AsciiBytes(s);
    assert forall i :: 0 <= i < |v| ==> IsVisibleAscii(v[i]);
    assert HeaderText(v).value == s;
    StripPrefixIff("Bearer ", s, token);
  }

  lemma NoPrefixNoToken(text: string)
    requires forall i :: 0 <= i < |text| ==> ' ' <= text[i] <= '~'
    requires !IsPrefix("Bearer ", text)
    ensures BearerToken(Headers(Some(AsciiBytes(text)))) == None
  {
    var v := AsciiBytes(text);
    assert forall i :: 0 <= i < |v| ==> IsVisibleAscii(v[i]);
    assert HeaderText(v).value == text;
  }

  /** `extract_auth`: 401 "Token ausente" without a bearer token, 401 "Token
      inválido ou expirado" when decoding or validation fails, otherwise the
      decoded claims unchanged. */
  function ExtractAuth(h: Headers, c: Crypto): (r: Result<Claims, ApiError>)
    ensures BearerToken(h).None? ==> r == Err(MissingToken)
    ensures BearerToken(h).Some? ==>
      r == (match c.decode(BearerToken(h).value) case None => Err(InvalidToken) case Some(cl) => Ok(cl))
    ensures r.Err? ==> r.error.status == 401
  {
    match BearerToken(h)
    case None => Err(MissingToken)
    case Some(token) =>
      match c.decode(token)
      case None => Err(InvalidToken)
      case Some(claims) => Ok(claims)
  }

  // ---------------------------------------------------- the chrono shim

  const TwoTo64: int := 0x1_0000_0000_0000_0000
  const I64Min: int := -0x8000_0000_0000_0000
  const I64Max: int := 0x7FFF_FFFF_FFFF_FFFF

  /** Two's-complement wrap to `i64` (the behaviour of `as i64` and of
      unchecked `i64` arithmetic in a release build). */
  function WrapI64(x: int): (r: int)
    ensures I64Min <= r <= I64Max
    ensures (x - r) % TwoTo64 == 0
    ensures I64Min <= x <= I64Max ==> r == x
  {
    var m := x % TwoTo64;
    if m > I64Max then m - TwoTo64 else m
  }

  /** `i64 as usize` on a 64-bit target. */
  function AsUsize(x: int): (r: nat)
    requires I64Min <= x <= I64Max
    ensures r < TwoTo64 && (x - r) % TwoTo64 == 0
    ensures x >= 0 ==> r == x
  {
    if x < 0 then x + TwoTo64 else x
  }

  /** `Utc::now()`: whole seconds since the epoch, `as i64`. */
  function UtcNow(secs: nat): int {
    WrapI64(secs)
  }

  /** `Duration::hours(h)`: the span in seconds. */
  function Hours(h: int): (r: int)
    ensures I64Min <= h * 3600 <= I64Max ==> r == h * 3600
    ensures I64Min <= r <= I64Max
  {
    WrapI64(h * 3600)
  }

  /** `DateTime::checked_add_signed`: it never reports overflow. */
  function CheckedAddSigned(dt: int, dur: int): (r: Option<int>)
    ensures r.Some?
    ensures I64Min <= dt + dur <= I64Max ==> r.value == dt + dur
  {
    Some(WrapI64(dt + dur))
  }

  /** The `exp` claim `create_token` computes from the clock reading `secs`:
      a day later, whenever that still fits in an `i64`. */
  function TokenExpiry(secs: nat): (exp: nat)
    ensures secs + 24 * 3600 <= I64Max ==> exp == secs + 86400
    ensures exp < TwoTo64
  {
    AsUsize(CheckedAddSigned(UtcNow(secs), Hours(24)).value)
  }

  /** The claims `create_token` signs: subject, name and role verbatim. */
  function TokenClaims(secs: nat, userId: string, username: string, role: string): (cl: Claims)
    ensures cl.sub == userId && cl.username == username && cl.role == role
    ensures cl.exp == TokenExpiry(secs)
  {
    Claims(userId, username, role, TokenExpiry(secs))
  }

  // ----------------------------------------------------------- handlers

  datatype LoginResponse = LoginResponse(token: string, user: User)

  /** `login`: an unknown user and a wrong password get the same 401; on
      success, a token for that user's id, name and role and its public
      view. `create_token` is `c.encode` of `TokenClaims`. */
  function Login(t: Table, c: Crypto, secs: nat, username: string, password: string): (r: Result<LoginResponse, ApiError>)
    ensures !HasUsername(t, username) ==> r == Err(BadCredentials)
    ensures forall row ::
      (Valid(t) && row in t && row.username == username && c.verify(password, row.passwordHash) == Some(false))
      ==> r == Err(BadCredentials)
    ensures forall row ::
      (Valid(t) && row in t && row.username == username && c.verify(password, row.passwordHash) == None)
      ==> r == Err(InternalError)
    ensures forall row ::
      (Valid(t) && row in t && row.username == username && c.verify(password, row.passwordHash) == Some(true))
      ==> r == (match c.encode(TokenClaims(secs, row.id, row.username, row.role))
                case None => Err(TokenFailure)
                case Some(token) => Ok(LoginResponse(token, ToPublic(row))))
    ensures r.Ok? ==> exists row :: (
      && row in t && row.username == username
      && c.verify(password, row.passwordHash) == Some(true)
      && r.value.user == ToPublic(row)
      && Some(r.value.token) == c.encode(TokenClaims(secs, row.id, row.username, row.role)))
    ensures r.Err? ==> r.error in {BadCredentials, InternalError, TokenFailure}
  {
    match GetUserByUsername(t, username)
    case None => Err(BadCredentials)
    case Some(user) =>
      match c.verify(password, user.passwordHash)
      case None => Err(InternalError)
      case Some(false) => Err(BadCredentials)
      case Some(true) =>
        match c.encode(TokenClaims(secs, user.id, user.username, user.role))
        case None => Err(TokenFailure)
        case Some(token) => Ok(LoginResponse(token, ToPublic(user)))
  }

  /** `me`: the caller's public view, 404 once the subject is gone. */
  function Me(h: Headers, t: Table, c: Crypto): (r: Result<User, ApiError>)
    ensures ExtractAuth(h, c).Err? ==> r == Err(ExtractAuth(h, c).error)
    ensures ExtractAuth(h, c).Ok? && !HasId(t, ExtractAuth(h, c).value.sub) ==> r == Err(UserNotFound)
    ensures r.Ok? ==> ExtractAuth(h, c).Ok? && exists row :: row in t && row.id == ExtractAuth(h, c).value.sub && r.value == ToPublic(row)
    ensures Valid(t) && ExtractAuth(h, c).Ok? ==>
      forall row :: row in t && row.id == ExtractAuth(h, c).value.sub ==> r == Ok(ToPublic(row))
  {
    match ExtractAuth(h, c)
    case Err(e) => Err(e)
    case Ok(claims) =>
      match GetUserById(t, claims.sub)
      case None => Err(UserNotFound)
      case Some(user) => Ok(ToPublic(user))
  }

  /** `change_password`: checks the current password against the caller's
      row, then stores the new hash for `claims.sub` only. `newHash` is the
      hasher's result for the new password. */
  function ChangePassword(h: Headers, t: Table, c: Crypto, current: string,
                          newHash: Result<string, string>, now: string): (r: (Table, Result<(), ApiError>))
    ensures r.1.Err? && r.1.error != PasswordUpdateFailure ==> r.0 == t
    ensures ExtractAuth(h, c).Err? ==> r == (t, Err(ExtractAuth(h, c).error))
    ensures ExtractAuth(h, c).Ok? && !HasId(t, ExtractAuth(h, c).value.sub) ==> r == (t, Err(UserNotFound))
    ensures forall row ::
      (&& Valid(t) && ExtractAuth(h, c).Ok? && row in t && row.id == ExtractAuth(h, c).value.sub
       && c.verify(current, row.passwordHash) == Some(false))
      ==> r == (t, Err(WrongCurrentPassword))
    ensures forall row ::
      (&& Valid(t) && ExtractAuth(h, c).Ok? && row in t && row.id == ExtractAuth(h, c).value.sub
       && c.verify(current, row.passwordHash) == None)
      ==> r == (t, Err(InternalError))
    ensures forall row ::
      (&& Valid(t) && ExtractAuth(h, c).Ok? && row in t && row.id == ExtractAuth(h, c).value.sub
       && c.verify(current, row.passwordHash) == Some(true))
      ==> (r.1.Ok? <==> newHash.Ok?)
    ensures r.1.Ok? ==>
      && ExtractAuth(h, c).Ok? && newHash.Ok?
      && var sub := ExtractAuth(h, c).value.sub;
         && |r.0| == |t|
         && forall k :: 0 <= k < |t| ==>
              r.0[k] == if t[k].id == sub then t[k].(passwordHash := newHash.value, updatedAt := now) else t[k]
    ensures Valid(t) ==> Valid(r.0)
  {
    match ExtractAuth(h, c)
    case Err(e) => (t, Err(e))
    case Ok(claims) =>
      match GetUserById(t, claims.sub)
      case None => (t, Err(UserNotFound))
      case Some(user) =>
        match c.verify(current, user.passwordHash)
        case None => (t, Err(InternalError))
        case Some(false) => (t, Err(WrongCurrentPassword))
        case Some(true) =>
          var reply := UpdatePassword(t, claims.sub, newHash, now);
          match reply.result
          case Err(_) => (reply.table, Err(PasswordUpdateFailure))
          case Ok(_) => (reply.table, Ok(()))
  }
}

=== FILE: bridge.dfy ===
/** The browser-side session controller (`IronRdpSession`) and its input
    mapper. The controller is an explicit state record; every operation is a
    pure transition that returns the new state together with the calls made
    on the session engine and the notices delivered to the host. The engine
    itself is foreign code: only the calls made on it are recorded, and the
    outcomes of its asynchronous steps are parameters. */
module Bridge {
  import opened Common

  /** Physical key identifier (`KeyboardEvent.code`) to protocol scancode,
      US layout; values from 0xE000 up are E0-prefixed extended codes. Codes
      the table does not list have no scancode. */
  function Scancode(code: string): (r: Option<int>)
    ensures r.Some? ==> 0 < r.value < 0x10000
  {
    match code
    case "Escape" => Some(0x0001)
    case "Digit1" => Some(0x0002)
    case "Digit2" => Some(0x0003)
    case "Digit3" => Some(0x0004)
    case "Digit4" => Some(0x0005)
    case "Digit5" => Some(0x0006)
    case "Digit6" => Some(0x0007)
    case "Digit7" => Some(0x0008)
    case "Digit8" => Some(0x0009)
    case "Digit9" => Some(0x000A)
    case "Digit0" => Some(0x000B)
    case "Minus" => Some(0x000C)
    case "Equal" => Some(0x000D)
    case "Backspace" => Some(0x000E)
    case "Tab" => Some(0x000F)
    case "KeyQ" => Some(0x0010)
    case "KeyW" => Some(0x0011)
    case "KeyE" => Some(0x0012)
    case "KeyR" => Some(0x0013)
    case "KeyT" => Some(0x0014)
    case "KeyY" => Some(0x0015)
    case "KeyU" => Some(0x0016)
    case "KeyI" => Some(0x0017)
    case "KeyO" => Some(0x0018)
    case "KeyP" => Some(0x0019)
    case "BracketLeft" => Some(0x001A)
    case "BracketRight" => Some(0x001B)
    case "Enter" => Some(0x001C)
    case "ControlLeft" => Some(0x001D)
    case "KeyA" => Some(0x001E)
    case "KeyS" => Some(0x001F)
    case "KeyD" => Some(0x0020)
    case "KeyF" => Some(0x0021)
    case "KeyG" => Some(0x0022)
    case "KeyH" => Some(0x0023)
    case "KeyJ" => Some(0x0024)
    case "KeyK" => Some(0x0025)
    case "KeyL" => Some(0x0026)
    case "Semicolon" => Some(0x0027)
    case "Quote" => Some(0x0028)
    case "Backquote" => Some(0x0029)
    case "ShiftLeft" => Some(0x002A)
    case "Backslash" => Some(0x002B)
    case "KeyZ" => Some(0x002C)
    case "KeyX" => Some(0x002D)
    case "KeyC" => Some(0x002E)
    case "KeyV" => Some(0x002F)
    case "KeyB" => Some(0x0030)
    case "KeyN" => Some(0x0031)
    case "KeyM" => Some(0x0032)
    case "Comma" => Some(0x0033)
    case "Period" => Some(0x0034)
    case "Slash" => Some(0x0035)
    case "ShiftRight" => Some(0x0036)
    case "NumpadMultiply" => Some(0x0037)
    case "AltLeft" => Some(0x0038)
    case "Space" => Some(0x0039)
    case "CapsLock" => Some(0x003A)
    case "F1" => Some(0x003B)
    case "F2" => Some(0x003C)
    case "F3" => Some(0x003D)
    case "F4" => Some(0x003E)
    case "F5" => Some(0x003F)
    case "F6" => Some(0x0040)
    case "F7" => Some(0x0041)
    case "F8" => Some(0x0042)
    case "F9" => Some(0x0043)
    case "F10" => Some(0x0044)
    case "NumLock" => Some(0x0045)
    case "ScrollLock" => Some(0x0046)
    case "Numpad7" => Some(0x0047)
    case "Numpad8" => Some(0x0048)
    case "Numpad9" => Some(0x0049)
    case "NumpadSubtract" => Some(0x004A)
    case "Numpad4" => Some(0x004B)
    case "Numpad5" => Some(0x004C)
    case "Numpad6" => Some(0x004D)
    case "NumpadAdd" => Some(0x004E)
    case "Numpad1" => Some(0x004F)
    case "Numpad2" => Some(0x0050)
    case "Numpad3" => Some(0x0051)
    case "Numpad0" => Some(0x0052)
    case "NumpadDecimal" => Some(0x0053)
    case "IntlBackslash" => Some(0x0056)
    case "F11" => Some(0x0057)
    case "F12" => Some(0x0058)
    case "NumpadEnter" => Some(0xE01C)
    case "ControlRight" => Some(0xE01D)
    case "NumpadDivide" => Some(0xE035)
    case "PrintScreen" => Some(0xE037)
    case "AltRight" => Some(0xE038)
    case "Home" => Some(0xE047)
    case "ArrowUp" => Some(0xE048)
    case "PageUp" => Some(0xE049)
    case "ArrowLeft" => Some(0xE04B)
    case "ArrowRight" => Some(0xE04D)
    case "End" => Some(0xE04F)
    case "ArrowDown" => Some(0xE050)
    case "PageDown" => Some(0xE051)
    case "Insert" => Some(0xE052)
    case "Delete" => Some(0xE053)
    case "MetaLeft" => Some(0xE05B)
    case "MetaRight" => Some(0xE05C)
    case "ContextMenu" => Some(0xE05D)
    case "Pause" => Some(0xE11D)
    case _ => None
  }

  /** The protocol input events the controller builds. */
  datatype DeviceEvent =
    | KeyPressed(scancode: int)
    | KeyReleased(scancode: int)
    | MouseMove(x: int, y: int)
    | MouseButtonPressed(button: int)
    | MouseButtonReleased(button: int)
    | WheelRotations(vertical: bool, amount: int, unit: int)

  /** One `InputTransaction`: events in insertion order, submitted at once. */
  type Transaction = seq<DeviceEvent>

  /** Connection parameters handed to the engine's session builder. */
  datatype ConnectionRequest = ConnectionRequest(
    username: string, password: string, destination: string,
    proxyAddress: string, authToken: string, width: int, height: int,
    canvas: Option<Canvas>, domain: Option<string>)

  /** Host-supplied `connect` options; absent width/height are `None`. */
  datatype ConnectOptions = ConnectOptions(
    username: string, password: string, destination: string,
    proxyAddress: string, domain: Option<string>, canvas: Option<Canvas>,
    width: Option<int>, height: Option<int>)

  /** Identity of a DOM canvas element. */
  type Canvas = nat

  /** One installed set of input listeners: the canvas it was attached to and
      the generation of handler functions it uses. */
  datatype Listeners = Listeners(canvas: Canvas, generation: nat)

  /** Calls made on the engine module and the session object. */
  datatype EngineCall =
    | Setup(level: string)
    | Negotiate(request: ConnectionRequest)
    | Run
    | ApplyInputs(tx: Transaction)
    | EngineShutdown
    | EngineResize(width: int, height: int)

  datatype Status = Connecting | Connected | Disconnected | Errored

  /** The string the status callback receives. */
  function StatusText(s: Status): (r: string)
    ensures r in {"connecting", "connected", "disconnected", "error"}
  {
    match s
    case Connecting => "connecting"
    case Connected => "connected"
    case Disconnected => "disconnected"
    case Errored => "error"
  }

  /** Each status reaches the host as its own string, so the host can tell
      them apart. */
  lemma StatusTextsDistinct(a: Status, b: Status)
    ensures StatusText(a) == StatusText(b) <==> a == b
  {
  }

  datatype TerminationInfo = TerminationInfo(reason: string)

  /** What a controller operation can throw. `EngineError` carries the text
      its `toString()` yields; `NoCanvas` is the TypeError raised when the
      options carry no canvas to attach listeners to. */
  datatype Failure = NotInitialized | EngineError(text: string) | NoCanvas

  function Describe(f: Failure): string {
    match f
    case NotInitialized => "Error: WASM module not initialized. Call init() first."
    case EngineError(t) => t
    case NoCanvas => "TypeError"
  }

  /** Deliveries to the host's status, error and terminate callbacks. */
  datatype Notice =
    | StatusNotice(status: Status)
    | ErrorNotice(message: string)
    | TerminateNotice(info: TerminationInfo)

  /** How an asynchronous controller call has settled so far. */
  datatype Completion = Returned | Pending | Resolved(info: TerminationInfo) | Threw(failure: Failure)

  /** The fields of `IronRdpSession`. The callbacks are tracked only by
      whether one is registered. */
  datatype Controller = Controller(
    wasm: bool, session: bool, active: bool, canvas: Option<Canvas>,
    installed: set<Listeners>, generation: nat,
    onStatus: bool, onError: bool, onTerminate: bool)

  /** Controller state plus everything it has said to the engine and host. */
  datatype World = World(ctl: Controller, engine: seq<EngineCall>, host: seq<Notice>)

  /** The controller as the constructor leaves it: nothing loaded, no
      session, no canvas, no listeners, no callbacks. */
  const Fresh := Controller(false, false, false, None, {}, 0, false, false, false)

  /** Structural facts every reachable controller satisfies. */
  predicate Wf(c: Controller) {
    && (c.active ==> c.session)
    && (c.session ==> c.wasm)
    && (forall l :: l in c.installed ==> 0 < l.generation <= c.generation)
  }

  /** The guard every input path checks before touching the engine. */
  predicate InputGate(c: Controller) {
    c.session && c.active && c.wasm
  }

  function Report(w: World, s: Status): (r: World)
    ensures r.ctl == w.ctl && r.engine == w.engine
    ensures w.ctl.onStatus ==> r.host == w.host + [StatusNotice(s)]
    ensures !w.ctl.onStatus ==> r.host == w.host
  {
    if w.ctl.onStatus then w.(host := w.host + [StatusNotice(s)]) else w
  }

  function Submit(w: World, tx: Transaction): World {
    w.(engine := w.engine + [ApplyInputs(tx)])
  }

  // ---------------------------------------------------------------- mapper

  /** Key handler's mapping: nothing for an unmapped code, otherwise one
      press or release event carrying the table's scancode. */
  function KeyTransaction(code: string, isDown: bool): (r: Option<Transaction>)
    ensures Scancode(code).None? <==> r.None?
    ensures r.Some? ==> |r.value| == 1 && (r.value[0].KeyPressed? || r.value[0].KeyReleased?)
    ensures r.Some? ==> r.value[0].scancode == Scancode(code).value
    ensures r.Some? ==> (r.value[0].KeyPressed? <==> isDown) && (r.value[0].KeyReleased? <==> !isDown)
  {
    match Scancode(code)
    case None => None
    case Some(sc) => Some([if isDown then KeyPressed(sc) else KeyReleased(sc)])
  }

  /** Wheel direction: a positive delta (towards the user) is a negative
      rotation, anything else a positive one. */
  function Rotation(delta: real): (r: int)
    ensures r == -1 || r == 1
    ensures r < 0 <==> delta > 0.0
  {
    if delta > 0.0 then -1 else 1
  }

  /** The wheel handler's transaction for deltas `dx`, `dy`. */
  function WheelTransaction(dx: real, dy: real): (r: Transaction)
    ensures |r| == (if dy != 0.0 then 1 else 0) + (if dx != 0.0 then 1 else 0)
    ensures forall i :: 0 <= i < |r| ==> r[i].WheelRotations? && r[i].unit == 0
    ensures forall i :: 0 <= i < |r| ==> (r[i].amount < 0 <==> (if r[i].vertical then dy else dx) > 0.0)
    ensures forall i :: 0 <= i < |r| ==> (if r[i].vertical then dy else dx) != 0.0
    ensures forall i :: 0 <= i < |r| ==> r[i].amount == 1 || r[i].amount == -1
    ensures |r| == 2 ==> r[0].vertical && !r[1].vertical
  {
    (if dy != 0.0 then [WheelRotations(true, Rotation(dy), 0)] else [])
    + (if dx != 0.0 then [WheelRotations(false, Rotation(dx), 0)] else [])
  }

  /** The fixed Ctrl+Alt+Del transaction. */
  const CtrlAltDelTx: Transaction := [
    KeyPressed(0x001D), KeyPressed(0x0038), KeyPressed(0xE053),
    KeyReleased(0xE053), KeyReleased(0x0038), KeyReleased(0x001D)
  ]

  /** The fixed sequence uses the table's codes for ControlLeft, AltLeft and
      Delete, presses them in that order and releases them in reverse. */
  lemma CtrlAltDelUsesTableCodes()
    ensures |CtrlAltDelTx| == 6
    ensures CtrlAltDelTx[0] == KeyPressed(Scancode("ControlLeft").value)
    ensures CtrlAltDelTx[1] == KeyPressed(Scancode("AltLeft").value)
    ensures CtrlAltDelTx[2] == KeyPressed(Scancode("Delete").value)
    ensures forall i :: 0 <= i < 3 ==> CtrlAltDelTx[5 - i] == KeyReleased(CtrlAltDelTx[i].scancode)
  {
  }

  // ------------------------------------------------------------ lifecycle

  /** The setters below store whatever they are given; `registered` is
      whether that value is truthy, which is all the controller tests.
      Passing null or nothing unregisters the callback. */

  function OnStatus(w: World, registered: bool): (r: World)
    ensures r.ctl.onStatus == registered && r.ctl == w.ctl.(onStatus := registered)
    ensures r.engine == w.engine && r.host == w.host
  {
    w.(ctl := w.ctl.(onStatus := registered))
  }

  function OnError(w: World, registered: bool): (r: World)
    ensures r.ctl.onError == registered && r.ctl == w.ctl.(onError := registered)
    ensures r.engine == w.engine && r.host == w.host
  {
    w.(ctl := w.ctl.(onError := registered))
  }

  function OnTerminate(w: World, registered: bool): (r: World)
    ensures r.ctl.onTerminate == registered && r.ctl == w.ctl.(onTerminate := registered)
    ensures r.engine == w.engine && r.host == w.host
  {
    w.(ctl := w.ctl.(onTerminate := registered))
  }

  /** Once the status callback is unregistered, no status reaches the host. */
  lemma UnregisteredStatusSilent(w: World, s: Status)
    ensures Report(OnStatus(w, false), s).host == w.host
  {
  }

  /** `init`: loads the module once; a second call returns without any
      engine call. `load` is the outcome of importing and starting it. */
  function Init(w: World, load: Outcome<string>): (r: (World, Completion))
    ensures w.ctl.wasm ==> r == (w, Returned)
    ensures !w.ctl.wasm && load.Pass? ==>
      && r.0.ctl == w.ctl.(wasm := true) && r.1 == Returned
      && r.0.engine == w.engine + [Setup("INFO")] && r.0.host == w.host
    ensures !w.ctl.wasm && load.Fail? ==> r == (w, Threw(EngineError(load.error)))
    ensures Wf(w.ctl) ==> Wf(r.0.ctl)
  {
    if w.ctl.wasm then (w, Returned)
    else match load
      case Fail(e) => (w, Threw(EngineError(e)))
      case Pass => (World(w.ctl.(wasm := true), w.engine + [Setup("INFO")], w.host), Returned)
  }

  /** The request `connect` assembles from the options: width and height
      fall back to 1280x720 when absent or zero, an empty domain is left out,
      and the auth token is the fixed string "koder". */
  function BuildRequest(o: ConnectOptions): (q: ConnectionRequest)
    ensures q.username == o.username && q.password == o.password
    ensures q.destination == o.destination && q.proxyAddress == o.proxyAddress
    ensures q.canvas == o.canvas && q.authToken == "koder"
    ensures q.width == (if o.width.Some? && o.width.value != 0 then o.width.value else 1280)
    ensures q.height == (if o.height.Some? && o.height.value != 0 then o.height.value else 720)
    ensures q.domain.Some? <==> o.domain.Some? && o.domain.value != ""
    ensures q.domain.Some? ==> q.domain == o.domain
  {
    ConnectionRequest(
      o.username, o.password, o.destination, o.proxyAddress, "koder",
      match o.width case Some(v) => (if v != 0 then v else 1280) case None => 1280,
      match o.height case Some(v) => (if v != 0 then v else 720) case None => 720,
      o.canvas,
      match o.domain case Some(d) => (if d != "" then Some(d) else None) case None => None)
  }

  /** The `catch` block: deactivate, report `error`, hand the description to
      the error callback, and rethrow the same failure. */
  function Fail(w: World, f: Failure): (r: (World, Completion))
    ensures r.1 == Threw(f) && !r.0.ctl.active && r.0.engine == w.engine
    ensures r.0.ctl == w.ctl.(active := false)
    ensures r.0.host == w.host
      + (if w.ctl.onStatus then [StatusNotice(Errored)] else [])
      + (if w.ctl.onError then [ErrorNotice(Describe(f))] else [])
  {
    var w1 := Report(w.(ctl := w.ctl.(active := false)), Errored);
    var w2 := if w.ctl.onError then w1.(host := w1.host + [ErrorNotice(Describe(f))]) else w1;
    (w2, Threw(f))
  }

  /** `connect` up to its first suspension: binds the canvas, reports
      `connecting` and asks the engine to negotiate. Before `init` it throws
      with no notice and no engine call. */
  function ConnectStart(w: World, o: ConnectOptions): (r: (World, Completion))
    ensures !w.ctl.wasm ==> r == (w, Threw(NotInitialized))
    ensures w.ctl.wasm ==>
      && r.1 == Pending
      && r.0.ctl == w.ctl.(canvas := o.canvas)
      && r.0.engine == w.engine + [Negotiate(BuildRequest(o))]
      && r.0.host == w.host + (if w.ctl.onStatus then [StatusNotice(Connecting)] else [])
    ensures Wf(w.ctl) ==> Wf(r.0.ctl)
  {
    if !w.ctl.wasm then (w, Threw(NotInitialized))
    else
      var w1 := Report(w.(ctl := w.ctl.(canvas := o.canvas)), Connecting);
      (w1.(engine := w1.engine + [Negotiate(BuildRequest(o))]), Pending)
  }

  /** `_setupInputHandlers`: replaces the handler functions with a fresh
      generation, then attaches them to the bound canvas. With no canvas
      the first `addEventListener` throws after the replacement, so the new
      generation exists but nothing is attached. */
  function SetupInputHandlers(c: Controller): (r: (Controller, Option<Failure>))
    ensures r.0.generation == c.generation + 1
    ensures c.canvas.None? <==> r.1.Some?
    ensures r.1.Some? ==> r.1.value == NoCanvas && r.0 == c.(generation := c.generation + 1)
    ensures r.1.None? ==>
      r.0 == c.(generation := c.generation + 1,
                installed := c.installed + {Listeners(c.canvas.value, c.generation + 1)})
  {
    var c1 := c.(generation := c.generation + 1);
    match c.canvas
    case None => (c1, Some(NoCanvas))
    case Some(cv) => (c1.(installed := c.installed + {Listeners(cv, c1.generation)}), None)
  }

  /** A setup that throws still retires the handler functions it replaced:
      once a canvas is bound again, removal targets the new generation, and
      listeners attached earlier stay on their canvas. */
  lemma FailedSetupStrandsListeners(c: Controller, cv: Canvas)
    requires c.canvas.None? && Listeners(cv, c.generation) in c.installed
    ensures SetupInputHandlers(c).1 == Some(NoCanvas)
    ensures Listeners(cv, c.generation) in RemoveInputHandlers(SetupInputHandlers(c).0.(canvas := Some(cv))).installed
  {
  }

  /** `connect` when negotiation settles: on success the session becomes
      active, `connected` is reported, listeners are attached and the run
      loop starts; on failure the `catch` block runs. */
  function Negotiated(w: World, negotiation: Outcome<string>): (r: (World, Completion))
    ensures negotiation.Fail? ==> r == Fail(w, EngineError(negotiation.error))
    ensures negotiation.Pass? && w.ctl.canvas.Some? ==>
      && r.1 == Pending && r.0.ctl.session && r.0.ctl.active
      && r.0.engine == w.engine + [Run]
      && r.0.host == w.host + (if w.ctl.onStatus then [StatusNotice(Connected)] else [])
      && Listeners(w.ctl.canvas.value, w.ctl.generation + 1) in r.0.ctl.installed
    ensures negotiation.Pass? && w.ctl.canvas.None? ==>
      && r.1 == Threw(NoCanvas) && r.0.ctl.session && !r.0.ctl.active
      && r.0.engine == w.engine
    ensures negotiation.Pass? && w.ctl.canvas.None? ==>
      r.0.ctl.generation == w.ctl.generation + 1 && r.0.ctl.installed == w.ctl.installed
    ensures Wf(w.ctl) && w.ctl.wasm ==> Wf(r.0.ctl)
  {
    match negotiation
    case Fail(e) => Fail(w, EngineError(e))
    case Pass =>
      var w1 := Report(w.(ctl := w.ctl.(session := true, active := true)), Connected);
      var (c, setup) := SetupInputHandlers(w1.ctl);
      match setup
      case Some(f) => Fail(w1.(ctl := c), f)
      case None => (World(c, w1.engine + [Run], w1.host), Pending)
  }

  /** `connect` when the run loop settles: a clean end deactivates, reports
      `disconnected` and passes the termination info on; a failure runs the
      `catch` block. */
  function RunEnded(w: World, run: Result<TerminationInfo, string>): (r: (World, Completion))
    ensures run.Err? ==> r == Fail(w, EngineError(run.error))
    ensures run.Ok? ==>
      && r.1 == Resolved(run.value)
      && r.0.ctl == w.ctl.(active := false) && r.0.engine == w.engine
      && r.0.host == w.host
        + (if w.ctl.onStatus then [StatusNotice(Disconnected)] else [])
        + (if w.ctl.onTerminate then [TerminateNotice(run.value)] else [])
    ensures Wf(w.ctl) ==> Wf(r.0.ctl)
  {
    match run
    case Err(e) => Fail(w, EngineError(e))
    case Ok(t) =>
      var w1 := Report(w.(ctl := w.ctl.(active := false)), Disconnected);
      (if w.ctl.onTerminate then w1.(host := w1.host + [TerminateNotice(t)]) else w1, Resolved(t))
  }

  /** The whole `connect` call with no other event interleaved, given how
      the engine's negotiation and run loop settle. */
  function Connect(w: World, o: ConnectOptions, negotiation: Outcome<string>,
                   run: Result<TerminationInfo, string>): (r: (World, Completion))
    // before `init`: throws, reports nothing, calls nothing
    ensures !w.ctl.wasm ==> r == (w, Threw(NotInitialized))
    // whatever happens, the controller ends inactive and the call settles
    ensures w.ctl.wasm ==> !r.0.ctl.active && (r.1.Resolved? || r.1.Threw?)
    // success then a clean end: connecting, connected, disconnected, then termination info
    ensures w.ctl.wasm && negotiation.Pass? && o.canvas.Some? && run.Ok? ==>
      && r.1 == Resolved(run.value)
      && r.0.engine == w.engine + [Negotiate(BuildRequest(o)), Run]
      && r.0.host == w.host
        + (if w.ctl.onStatus
           then [StatusNotice(Connecting), StatusNotice(Connected), StatusNotice(Disconnected)]
           else [])
        + (if w.ctl.onTerminate then [TerminateNotice(run.value)] else [])
    // negotiation fails: connecting, error, the error text once, same failure rethrown
    ensures w.ctl.wasm && negotiation.Fail? ==>
      && r.1 == Threw(EngineError(negotiation.error))
      && r.0.engine == w.engine + [Negotiate(BuildRequest(o))]
      && r.0.host == w.host
        + (if w.ctl.onStatus then [StatusNotice(Connecting), StatusNotice(Errored)] else [])
        + (if w.ctl.onError then [ErrorNotice(negotiation.error)] else [])
    // the run loop fails: connecting, connected, error, the error text once
    ensures w.ctl.wasm && negotiation.Pass? && o.canvas.Some? && run.Err? ==>
      && r.1 == Threw(EngineError(run.error))
      && r.0.host == w.host
        + (if w.ctl.onStatus
           then [StatusNotice(Connecting), StatusNotice(Connected), StatusNotice(Errored)]
           else [])
        + (if w.ctl.onError then [ErrorNotice(run.error)] else [])
    ensures Wf(w.ctl) ==> Wf(r.0.ctl)
  {
    if !w.ctl.wasm then ConnectStart(w, o)
    else
      var w1 := ConnectStart(w, o).0;
      if negotiation.Fail? || o.canvas.None? then Negotiated(w1, negotiation)
      else RunEnded(Negotiated(w1, negotiation).0, run)
  }

  // ------------------------------------------------------- input handlers

  function HandleKey(w: World, code: string, isDown: bool): (r: World)
    ensures r.ctl == w.ctl && r.host == w.host
    ensures !InputGate(w.ctl) || Scancode(code).None? ==> r.engine == w.engine
    ensures InputGate(w.ctl) && Scancode(code).Some? ==>
      r.engine == w.engine + [ApplyInputs(KeyTransaction(code, isDown).value)]
  {
    if !InputGate(w.ctl) then w
    else match KeyTransaction(code, isDown)
      case None => w
      case Some(tx) => Submit(w, tx)
  }

  /** Mouse move with coordinates already scaled to the desktop. Past the
      gate the handler measures the bound canvas; with none bound (a later
      `connect` without a canvas is still negotiating) that measurement
      throws inside the listener and nothing is submitted. */
  function HandleMouseMove(w: World, x: int, y: int): (r: World)
    ensures r.ctl == w.ctl && r.host == w.host
    ensures !InputGate(w.ctl) || w.ctl.canvas.None? ==> r.engine == w.engine
    ensures InputGate(w.ctl) && w.ctl.canvas.Some? ==> r.engine == w.engine + [ApplyInputs([MouseMove(x, y)])]
  {
    if !InputGate(w.ctl) || w.ctl.canvas.None? then w else Submit(w, [MouseMove(x, y)])
  }

  function HandleMouseButton(w: World, button: int, isDown: bool): (r: World)
    ensures r.ctl == w.ctl && r.host == w.host
    ensures !InputGate(w.ctl) ==> r.engine == w.engine
    ensures InputGate(w.ctl) ==>
      && |r.engine| == |w.engine| + 1 && r.engine[..|w.engine|] == w.engine
      && r.engine[|w.engine|].ApplyInputs?
      && var tx := r.engine[|w.engine|].tx;
         |tx| == 1 && (tx[0].MouseButtonPressed? <==> isDown)
         && (tx[0].MouseButtonReleased? <==> !isDown) && tx[0].button == button
  {
    if !InputGate(w.ctl) then w
    else Submit(w, [if isDown then MouseButtonPressed(button) else MouseButtonReleased(button)])
  }

  /** Wheel handler: submits even when both deltas are zero (an empty
      transaction). */
  function HandleWheel(w: World, dx: real, dy: real): (r: World)
    ensures r.ctl == w.ctl && r.host == w.host
    ensures !InputGate(w.ctl) ==> r.engine == w.engine
    ensures InputGate(w.ctl) ==> r.engine == w.engine + [ApplyInputs(WheelTransaction(dx, dy))]
    ensures InputGate(w.ctl) && dx == 0.0 && dy == 0.0 ==> r.engine == w.engine + [ApplyInputs([])]
  {
    if !InputGate(w.ctl) then w else Submit(w, WheelTransaction(dx, dy))
  }

  function CtrlAltDel(w: World): (r: World)
    ensures r.ctl == w.ctl && r.host == w.host
    ensures !InputGate(w.ctl) ==> r.engine == w.engine
    ensures InputGate(w.ctl) ==> r.engine == w.engine + [ApplyInputs(CtrlAltDelTx)]
  {
    if !InputGate(w.ctl) then w else Submit(w, CtrlAltDelTx)
  }

  /** `resize` checks only the session and the active flag. */
  function Resize(w: World, width: int, height: int): (r: World)
    ensures r.ctl == w.ctl && r.host == w.host
    ensures !(w.ctl.session && w.ctl.active) ==> r.engine == w.engine
    ensures w.ctl.session && w.ctl.active ==> r.engine == w.engine + [EngineResize(width, height)]
  {
    if w.ctl.session && w.ctl.active then w.(engine := w.engine + [EngineResize(width, height)])
    else w
  }

  /** `_removeInputHandlers`: detaches the current generation's listeners
      from the bound canvas; nothing when no canvas is bound. */
  function RemoveInputHandlers(c: Controller): (r: Controller)
    ensures c.canvas.None? ==> r == c
    ensures r == c.(installed := r.installed)
    ensures c.canvas.Some? ==> r.installed == c.installed - {Listeners(c.canvas.value, c.generation)}
  {
    match c.canvas
    case None => c
    case Some(cv) => c.(installed := c.installed - {Listeners(cv, c.generation)})
  }

  /** `shutdown`: stops the engine only for an active session, always ends
      inactive, and always attempts to detach the listeners. */
  function Shutdown(w: World): (r: World)
    ensures r.host == w.host
    ensures r.ctl.active <==> w.ctl.active && !w.ctl.session
    ensures w.ctl.session && w.ctl.active ==> r.engine == w.engine + [EngineShutdown]
    ensures !(w.ctl.session && w.ctl.active) ==> r.engine == w.engine
    ensures r.ctl == RemoveInputHandlers(w.ctl.(active := w.ctl.active && !w.ctl.session))
  {
    var w1 := if w.ctl.session && w.ctl.active
              then World(w.ctl.(active := false), w.engine + [EngineShutdown], w.host)
              else w;
    w1.(ctl := RemoveInputHandlers(w1.ctl))
  }

  // ------------------------------------------ sequences of host interaction

  /** Everything the host or the DOM can do to a controller outside of
      `connect`'s own steps. */
  datatype Input =
    | Key(code: string, isDown: bool)
    | Move(x: int, y: int)
    | Button(button: int, isDown: bool)
    | Wheel(dx: real, dy: real)
    | SendCtrlAltDel
    | ResizeTo(width: int, height: int)
    | StopSession

  function Step(w: World, i: Input): World {
    match i
    case Key(code, down) => HandleKey(w, code, down)
    case Move(x, y) => HandleMouseMove(w, x, y)
    case Button(b, down) => HandleMouseButton(w, b, down)
    case Wheel(dx, dy) => HandleWheel(w, dx, dy)
    case SendCtrlAltDel => CtrlAltDel(w)
    case ResizeTo(wd, ht) => Resize(w, wd, ht)
    case StopSession => Shutdown(w)
  }

  function Steps(w: World, ins: seq<Input>): World
    decreases |ins|
  {
    if |ins| == 0 then w else Steps(Step(w, ins[0]), ins[1..])
  }

  /** No input ever activates a session, and while none is active nothing
      an input does reaches the engine. */
  lemma StepKeepsInactive(w: World, i: Input)
    requires !w.ctl.active
    ensures !Step(w, i).ctl.active && Step(w, i).engine == w.engine && Step(w, i).host == w.host
  {
  }

  /** Input gate over any sequence: once inactive, every key, button, move,
      wheel, Ctrl+Alt+Del, resize and shutdown is dropped by the engine's
      side. */
  lemma {:induction false} InactiveDropsAllInput(w: World, ins: seq<Input>)
    requires !w.ctl.active
    ensures Steps(w, ins).engine == w.engine && Steps(w, ins).host == w.host
    ensures !Steps(w, ins).ctl.active
    decreases |ins|
  {
    if |ins| > 0 {
      StepKeepsInactive(w, ins[0]);
      InactiveDropsAllInput(Step(w, ins[0]), ins[1..]);
    }
  }

  /** After `shutdown`, every later input is dropped. */
  lemma ShutdownClosesGate(w: World, ins: seq<Input>)
    requires Wf(w.ctl)
    ensures Steps(Shutdown(w), ins).engine == Shutdown(w).engine
  {
    InactiveDropsAllInput(Shutdown(w), ins);
  }

  /** After a session ends cleanly, no later input reaches the engine. */
  lemma NoInputAfterDisconnect(w: World, t: TerminationInfo, ins: seq<Input>)
    ensures Steps(RunEnded(w, Ok(t)).0, ins).engine == w.engine
  {
    InactiveDropsAllInput(RunEnded(w, Ok(t)).0, ins);
  }

  /** Every input preserves the controller's structural invariant. */
  lemma StepPreservesWf(w: World, i: Input)
    requires Wf(w.ctl)
    ensures Wf(Step(w, i).ctl)
  {
  }

  lemma {:induction false} StepsPreserveWf(w: World, ins: seq<Input>)
    requires Wf(w.ctl)
    ensures Wf(Steps(w, ins).ctl)
    decreases |ins|
  {
    if |ins| > 0 {
      StepPreservesWf(w, ins[0]);
      StepsPreserveWf(Step(w, ins[0]), ins[1..]);
    }
  }

  /** A mapped key pressed while a session is live reaches the engine as
      exactly one transaction of one event; interleaving it between the
      negotiation and the end of the run is possible. */
  lemma KeyDuringRunReachesEngine(w: World, o: ConnectOptions, code: string)
    requires w.ctl.wasm && o.canvas.Some? && Scancode(code).Some?
    ensures
      var w1 := Negotiated(ConnectStart(w, o).0, Pass).0;
      HandleKey(w1, code, true).engine == w1.engine + [ApplyInputs([KeyPressed(Scancode(code).value)])]
  {
  }

  /** A freshly constructed controller satisfies the invariant and drops
      every input. */
  lemma FreshDropsInput(ins: seq<Input>)
    ensures Wf(Fresh) && !InputGate(Fresh)
    ensures Steps(World(Fresh, [], []), ins) == World(Fresh, [], [])
  {
    InactiveDropsAllInput(World(Fresh, [], []), ins);
  }

  /** `shutdown` does not cancel a `connect` that is still negotiating:
      with no session yet it touches no engine, and when the negotiation
      then succeeds the gate opens and input reaches the engine again. */
  lemma ShutdownDuringNegotiationReopens(w: World, o: ConnectOptions, code: string)
    requires w.ctl.wasm && o.canvas.Some? && Scancode(code).Some?
    ensures
      var w1 := Negotiated(Shutdown(ConnectStart(w, o).0), Pass).0;
      && InputGate(w1.ctl)
      && HandleKey(w1, code, true).engine == w1.engine + [ApplyInputs([KeyPressed(Scancode(code).value)])]
  {
  }

  /** Likewise a clean end of one session does not close the gate for a
      second `connect` that was still negotiating. */
  lemma DisconnectDuringNegotiationReopens(w: World, o: ConnectOptions, t: TerminationInfo, code: string)
    requires w.ctl.wasm && o.canvas.Some? && Scancode(code).Some?
    ensures
      var w1 := Negotiated(RunEnded(ConnectStart(w, o).0, Ok(t)).0, Pass).0;
      && InputGate(w1.ctl)
      && HandleKey(w1, code, true).engine == w1.engine + [ApplyInputs([KeyPressed(Scancode(code).value)])]
  {
  }
}

=== FILE: common.dfy ===
/** Small shared vocabulary: optional values, results, and the string
    operations the server code relies on (prefix stripping, substring search,
    Unicode white-space trimming, byte-wise text ordering). */
module Common {

  datatype Option<+T> = None | Some(value: T)

  datatype Result<+T, +E> = Ok(value: T) | Err(error: E)

  /** Pass/Fail outcome of a step that produces no value. */
  datatype Outcome<+E> = Pass | Fail(error: E)

  /** An octet. */
  type Byte = b: int | 0 <= b < 256

  predicate IsPrefix<T(==)>(p: seq<T>, s: seq<T>) {
    |p| <= |s| && s[..|p|] == p
  }

  /** `str::strip_prefix`: the rest of `s` after `p`, when `s` starts with `p`. */
  function StripPrefix(p: string, s: string): (r: Option<string>)
    ensures r.Some? ==> s == p + r.value
    ensures r.None? ==> forall q :: s != p + q
  {
    if |p| <= |s| && s[..|p|] == p then Some(s[|p|..])
    else
      assert forall q :: (p + q)[..|p|] == p;
      None
  }

  /** The rest is uniquely determined: stripping succeeds with `q` exactly
      when `s` is `p` followed by `q`. */
  lemma StripPrefixIff(p: string, s: string, q: string)
    ensures StripPrefix(p, s) == Some(q) <==> s == p + q
  {
    if s == p + q {
      assert s[..|p|] == p && s[|p|..] == q;
    }
  }

  /** `str::contains` for a string needle: `needle` occurs somewhere in `s`. */
  predicate Contains<T(==)>(s: seq<T>, needle: seq<T>)
    decreases |s|
  {
    IsPrefix(needle, s) || (|s| > 0 && Contains(s[1..], needle))
  }

  /** Characters with the Unicode White_Space property, the set `str::trim`
      removes. */
  predicate IsWhitespace(c: char) {
    || ('\U{9}' <= c <= '\U{D}')
    || c == ' ' || c == '\U{85}' || c == '\U{A0}' || c == '\U{1680}'
    || ('\U{2000}' <= c <= '\U{200A}')
    || c == '\U{2028}' || c == '\U{2029}' || c == '\U{202F}' || c == '\U{205F}'
    || c == '\U{3000}'
  }

  function TrimStart(s: string): (r: string)
    ensures |r| <= |s| && r == s[|s| - |r|..]
    ensures forall i :: 0 <= i < |s| - |r| ==> IsWhitespace(s[i])
    ensures r == [] || !IsWhitespace(r[0])
  {
    if |s| > 0 && IsWhitespace(s[0]) then TrimStart(s[1..]) else s
  }

  function TrimEnd(s: string): (r: string)
    ensures |r| <= |s| && r == s[..|r|]
    ensures forall i :: |r| <= i < |s| ==> IsWhitespace(s[i])
    ensures r == [] || !IsWhitespace(r[|r| - 1])
  {
    if |s| > 0 && IsWhitespace(s[|s| - 1]) then TrimEnd(s[..|s| - 1]) else s
  }

  /** `str::trim`: both ends stripped of white space. */
  function Trim(s: string): string {
    TrimEnd(TrimStart(s))
  }

  /** `s.trim().is_empty()` holds exactly when every character of `s` is
      white space. */
  lemma TrimEmptyIff(s: string)
    ensures Trim(s) == [] <==> forall i :: 0 <= i < |s| ==> IsWhitespace(s[i])
  {
    if Trim(s) == [] {
      assert TrimStart(s) == [];
    }
  }

  /** Text ordering under SQLite's BINARY collation (memcmp of UTF-8, which
      agrees with code point order): `a` sorts no later than `b`. */
  predicate LexLe(a: string, b: string)
    decreases |a|
  {
    |a| == 0 || (|b| > 0 && (a[0] < b[0] || (a[0] == b[0] && LexLe(a[1..], b[1..]))))
  }

  lemma {:induction false} LexLeTotal(a: string, b: string)
    ensures LexLe(a, b) || LexLe(b, a)
    decreases |a|
  {
    if |a| > 0 && |b| > 0 && a[0] == b[0] {
      LexLeTotal(a[1..], b[1..]);
    }
  }

  lemma {:induction false} LexLeTransitive(a: string, b: string, c: string)
    requires LexLe(a, b) && LexLe(b, c)
    ensures LexLe(a, c)
    decreases |a|
  {
    if |a| > 0 && a[0] == b[0] && b[0] == c[0] {
      LexLeTransitive(a[1..], b[1..], c[1..]);
    }
  }
}

=== FILE: glue.dfy ===
/** The pure parts of the generated JavaScript glue around the RDP engine:
    code-point checks before a Unicode key event crosses into the engine,
    the optional-u32 sentinel, the ownership hand-over of wrapped engine
    objects, the enum tables, the reference count of mutable closures and
    the guard that loads the module once. Engine calls are recorded, not
    executed. */
module WasmGlue {
  import opened Common

  // -------------------------------------------------------- code points

  /** A Unicode scalar value (definition D76 of section 3.9 of the Unicode
      Standard): a code point that is not a surrogate. */
  predicate IsScalarValue(c: int) {
    0 <= c <= 0x10FFFF && !(0xD800 <= c <= 0xDFFF)
  }

  /** `_assertChar`: a number that is too large or a surrogate is refused
      (the failure carries the number); `undefined` (`None`) passes. */
  function AssertChar(c: Option<int>): (r: Outcome<int>)
    ensures r.Fail? ==> c == Some(r.error)
    ensures forall v :: c == Some(v) && v >= 0 ==> (r.Pass? <==> IsScalarValue(v))
    ensures c.None? ==> r.Pass?
  {
    match c
    case Some(v) => if v >= 0x110000 || (0xD800 <= v && v < 0xE000) then Fail(v) else Pass
    case None => Pass
  }

  /** A UTF-16 code unit, the element of a JavaScript string. */
  type CodeUnit = u: int | 0 <= u < 0x10000

  predicate IsHighSurrogate(u: CodeUnit) { 0xD800 <= u <= 0xDBFF }
  predicate IsLowSurrogate(u: CodeUnit) { 0xDC00 <= u <= 0xDFFF }

  /** `String.prototype.codePointAt(0)`: `undefined` for the empty string,
      a surrogate pair combined, any other first unit as it is. */
  function FirstCodePoint(s: seq<CodeUnit>): (r: Option<int>)
    ensures r.None? <==> |s| == 0
    ensures r.Some? ==> 0 <= r.value <= 0x10FFFF
    ensures r.Some? && r.value >= 0x10000 ==> |s| >= 2 && IsHighSurrogate(s[0]) && IsLowSurrogate(s[1])
    ensures r.Some? && r.value < 0x10000 ==> r.value == s[0]
  {
    if |s| == 0 then None
    else if |s| >= 2 && IsHighSurrogate(s[0]) && IsLowSurrogate(s[1]) then
      Some((s[0] as int - 0xD800) * 0x400 + (s[1] as int - 0xDC00) + 0x10000)
    else Some(s[0])
  }

  /** The UTF-16 encoding of a scalar value. */
  function Utf16(c: int): (r: seq<CodeUnit>)
    requires IsScalarValue(c)
    ensures |r| == (if c < 0x10000 then 1 else 2)
  {
    if c < 0x10000 then [c]
    else [0xD800 + (c - 0x10000) / 0x400, 0xDC00 + (c - 0x10000) % 0x400]
  }

  /** A Unicode key event as the engine receives it; `None` is `undefined`. */
  datatype UnicodeEvent = UnicodePressed(codePoint: Option<int>) | UnicodeReleased(codePoint: Option<int>)

  /** `DeviceEvent.unicodePressed` / `unicodeReleased`: the first code point
      of the text, checked before it crosses into the engine. */
  function UnicodeKey(text: seq<CodeUnit>, pressed: bool): (r: Result<UnicodeEvent, int>)
    ensures r.Err? <==> |text| > 0 && !IsScalarValue(FirstCodePoint(text).value)
    ensures r.Err? ==> 0xD800 <= r.error <= 0xDFFF
    ensures r.Ok? ==> r.value.codePoint == FirstCodePoint(text) && (r.value.UnicodePressed? <==> pressed)
    ensures r.Ok? && r.value.codePoint.Some? ==> IsScalarValue(r.value.codePoint.value)
  {
    var c := FirstCodePoint(text);
    match AssertChar(c)
    case Fail(v) => Err(v)
    case Pass => Ok(if pressed then UnicodePressed(c) else UnicodeReleased(c))
  }

  /** Text that starts with a character's UTF-16 encoding yields an event
      for exactly that character, whatever follows. */
  lemma UnicodeKeyRoundTrip(c: int, rest: seq<CodeUnit>, pressed: bool)
    requires IsScalarValue(c)
    ensures FirstCodePoint(Utf16(c) + rest) == Some(c)
    ensures UnicodeKey(Utf16(c) + rest, pressed) ==
      Ok(if pressed then UnicodePressed(Some(c)) else UnicodeReleased(Some(c)))
  {
    var s := Utf16(c) + rest;
    if c >= 0x10000 {
      var hi := (c - 0x10000) / 0x400;
      var lo := (c - 0x10000) % 0x400;
      assert s[0] == 0xD800 + hi && s[1] == 0xDC00 + lo;
      assert hi * 0x400 + lo == c - 0x10000;
    } else {
      assert s[0] == c;
    }
  }

  /** A lone surrogate at the start of the text is refused. */
  lemma LoneSurrogateRefused(u: CodeUnit, rest: seq<CodeUnit>, pressed: bool)
    requires 0xD800 <= u <= 0xDFFF
    requires IsHighSurrogate(u) ==> |rest| == 0 || !IsLowSurrogate(rest[0])
    ensures UnicodeKey([u] + rest, pressed) == Err(u)
  {
    var s := [u] + rest;
    assert s[0] == u;
    assert |s| >= 2 ==> s[1] == rest[0];
  }

  // ------------------------------------------------------ optional u32

  const TwoTo32: int := 0x1_0000_0000

  /** The number the glue passes for an absent optional u32. */
  const NoneSentinel: int := 0x1_0000_0001

  /** An optional u32 argument: absent (`isLikeNone`) becomes the sentinel,
      anything else `value >>> 0`. */
  function EncodeOptionU32(x: Option<int>): (r: int)
    ensures x.None? <==> r == NoneSentinel
    ensures x.Some? ==> 0 <= r < TwoTo32 && (x.value - r) % TwoTo32 == 0
  {
    match x
    case None => NoneSentinel
    case Some(v) => v % TwoTo32
  }

  /** An optional u32 result (`getInt`): the sentinel is `undefined`. */
  function DecodeOptionU32(n: int): (r: Option<int>)
    ensures r.None? <==> n == NoneSentinel
    ensures r.Some? ==> r.value == n
  {
    if n == NoneSentinel then None else Some(n)
  }

  /** Decoding inverts encoding on the u32 range, and no u32 is mistaken
      for an absent value. */
  lemma OptionU32RoundTrip(x: Option<int>)
    requires x.Some? ==> 0 <= x.value < TwoTo32
    ensures DecodeOptionU32(EncodeOptionU32(x)) == x
  {
  }

  // -------------------------------------------------- ownership hand-over

  /** The generated classes whose instances own engine memory. */
  datatype Class = DeviceEventClass | InputTransactionClass | DesktopSizeClass | SessionClass | SessionBuilderClass

  /** A wrapper object: its class and `__wbg_ptr` (0 once given away). */
  datatype Wrapper = Wrapper(kind: Class, ptr: nat)

  /** The JavaScript objects, by identity. */
  type ObjId = nat
  type Heap = map<ObjId, Wrapper>

  /** The engine call an ownership-taking method makes: the receiver's
      pointer and the pointer it hands over. */
  datatype Call = AddEvent(tx: nat, event: nat) | ApplyInputs(session: nat, tx: nat)
                | SetDesktopSize(builder: nat, size: nat)

  /** `__destroy_into_raw`: returns the pointer and zeroes it. */
  function DestroyIntoRaw(h: Heap, o: ObjId): (r: (Heap, nat))
    requires o in h
    ensures r.1 == h[o].ptr
    ensures o in r.0 && r.0[o] == Wrapper(h[o].kind, 0)
    ensures forall p :: p in h && p != o ==> p in r.0 && r.0[p] == h[p]
    ensures r.0.Keys == h.Keys
  {
    (h[o := h[o].(ptr := 0)], h[o].ptr)
  }

  /** The methods that take ownership of their argument: `_assertClass`
      first, then the argument's pointer goes to the engine. */
  datatype Consumer = AddEventTo | ApplyInputsTo | DesktopSizeTo

  function ArgumentClass(k: Consumer): Class {
    match k
    case AddEventTo => DeviceEventClass
    case ApplyInputsTo => InputTransactionClass
    case DesktopSizeTo => DesktopSizeClass
  }

  /** `addEvent`, `applyInputs` and `desktopSize`: an argument of the wrong
      class (or not an object) throws and changes nothing; otherwise its
      pointer is handed to the engine and zeroed. */
  function Consume(h: Heap, k: Consumer, self: ObjId, arg: Option<ObjId>): (r: Result<(Heap, Call), string>)
    requires self in h
    ensures r.Err? <==> !(arg.Some? && arg.value in h && h[arg.value].kind == ArgumentClass(k))
    ensures r.Ok? ==>
      && var a := arg.value;
         var given := r.value.1;
         && r.value.0 == h[a := Wrapper(h[a].kind, 0)]
         && given == (match k
                      case AddEventTo => AddEvent(r.value.0[self].ptr, h[a].ptr)
                      case ApplyInputsTo => ApplyInputs(r.value.0[self].ptr, h[a].ptr)
                      case DesktopSizeTo => SetDesktopSize(r.value.0[self].ptr, h[a].ptr))
  {
    if arg.Some? && arg.value in h && h[arg.value].kind == ArgumentClass(k) then
      var (h', p) := DestroyIntoRaw(h, arg.value);
      var s := h'[self].ptr;
      Ok((h', match k
              case AddEventTo => AddEvent(s, p)
              case ApplyInputsTo => ApplyInputs(s, p)
              case DesktopSizeTo => SetDesktopSize(s, p)))
    else Err("expected instance of " + ClassName(ArgumentClass(k)))
  }

  function ClassName(c: Class): string {
    match c
    case DeviceEventClass => "DeviceEvent"
    case InputTransactionClass => "InputTransaction"
    case DesktopSizeClass => "DesktopSize"
    case SessionClass => "Session"
    case SessionBuilderClass => "SessionBuilder"
  }

  /** The pointer a consumer hands over. */
  function Given(c: Call): nat {
    match c
    case AddEvent(_, e) => e
    case ApplyInputs(_, t) => t
    case SetDesktopSize(_, d) => d
  }

  /** Feeds the same argument to a series of consumers; returns the
      pointers handed over, in order. */
  function ConsumeSeries(h: Heap, ks: seq<(Consumer, ObjId)>, arg: ObjId): (r: seq<nat>)
    requires arg in h
    requires forall i :: 0 <= i < |ks| ==> ks[i].1 in h && ArgumentClass(ks[i].0) == h[arg].kind
    ensures |r| == |ks|
  {
    if |ks| == 0 then []
    else
      var step := Consume(h, ks[0].0, ks[0].1, Some(arg));
      [Given(step.value.1)] + ConsumeSeries(step.value.0, ks[1..], arg)
  }

  /** Each wrapper is single-use: the first consumer gets its pointer, every
      later one gets 0. */
  lemma {:induction false} SingleUse(h: Heap, ks: seq<(Consumer, ObjId)>, arg: ObjId)
    requires arg in h
    requires forall i :: 0 <= i < |ks| ==> ks[i].1 in h && ArgumentClass(ks[i].0) == h[arg].kind
    ensures |ks| > 0 ==> ConsumeSeries(h, ks, arg)[0] == h[arg].ptr
    ensures forall i :: 0 < i < |ks| ==> ConsumeSeries(h, ks, arg)[i] == 0
  {
    if |ks| > 0 {
      var h' := Consume(h, ks[0].0, ks[0].1, Some(arg)).value.0;
      assert h'[arg].ptr == 0 && h'.Keys == h.Keys && h'[arg].kind == h[arg].kind;
      ZeroStaysZero(h', ks[1..], arg);
    }
  }

  lemma {:induction false} ZeroStaysZero(h: Heap, ks: seq<(Consumer, ObjId)>, arg: ObjId)
    requires arg in h && h[arg].ptr == 0
    requires forall i :: 0 <= i < |ks| ==> ks[i].1 in h && ArgumentClass(ks[i].0) == h[arg].kind
    ensures forall i :: 0 <= i < |ks| ==> ConsumeSeries(h, ks, arg)[i] == 0
  {
    if |ks| > 0 {
      var h' := Consume(h, ks[0].0, ks[0].1, Some(arg)).value.0;
      assert h' == h;
      ZeroStaysZero(h', ks[1..], arg);
    }
  }

  // ------------------------------------------------------------ enum tables

  /** The `IronErrorKind` entries from name to number. */
  function ErrorKindNumber(name: string): (r: Option<int>)
    ensures r.Some? ==> 0 <= r.value <= 6
  {
    match name
    case "General" => Some(0)
    case "WrongPassword" => Some(1)
    case "LogonFailure" => Some(2)
    case "AccessDenied" => Some(3)
    case "RDCleanPath" => Some(4)
    case "ProxyConnect" => Some(5)
    case "NegotiationFailure" => Some(6)
    case _ => None
  }

  /** The `IronErrorKind` entries from number back to name. */
  function ErrorKindName(n: int): (r: Option<string>)
    ensures r.Some? <==> 0 <= n <= 6
  {
    match n
    case 0 => Some("General")
    case 1 => Some("WrongPassword")
    case 2 => Some("LogonFailure")
    case 3 => Some("AccessDenied")
    case 4 => Some("RDCleanPath")
    case 5 => Some("ProxyConnect")
    case 6 => Some("NegotiationFailure")
    case _ => None
  }

  /** The two directions of the table are inverse. */
  lemma ErrorKindInverse(name: string, n: int)
    ensures ErrorKindNumber(name) == Some(n) <==> ErrorKindName(n) == Some(name)
  {
  }

  function RotationUnitNumber(name: string): (r: Option<int>)
    ensures r.Some? ==> 0 <= r.value <= 2
  {
    match name
    case "Pixel" => Some(0)
    case "Line" => Some(1)
    case "Page" => Some(2)
    case _ => None
  }

  function RotationUnitName(n: int): (r: Option<string>)
    ensures r.Some? <==> 0 <= n <= 2
  {
    match n
    case 0 => Some("Pixel")
    case 1 => Some("Line")
    case 2 => Some("Page")
    case _ => None
  }

  lemma RotationUnitInverse(name: string, n: int)
    ensures RotationUnitNumber(name) == Some(n) <==> RotationUnitName(n) == Some(name)
  {
  }

  // ------------------------------------------------------ mutable closures

  /** The shared state of a closure from `makeMutClosure`: the closure
      environment `a` (0 while in use or after destruction), `b`, the
      reference count, and the destructor calls made so far. */
  datatype ClosureState = ClosureState(a: int, b: int, cnt: int, dtorCalls: seq<(int, int)>)

  function MakeMutClosure(a: int, b: int): (s: ClosureState)
    ensures s.cnt == 1 && s.a == a && s.b == b && s.dtorCalls == []
  {
    ClosureState(a, b, 1, [])
  }

  /** `_wbg_cb_unref`: drops one reference; the destructor runs, with the
      current environment, exactly when the count reaches 0. */
  function Unref(s: ClosureState): (r: ClosureState)
    ensures r.cnt == s.cnt - 1 && r.b == s.b
    ensures r.cnt == 0 ==> r.dtorCalls == s.dtorCalls + [(s.a, s.b)] && r.a == 0
    ensures r.cnt != 0 ==> r.dtorCalls == s.dtorCalls && r.a == s.a
  {
    var cnt := s.cnt - 1;
    if cnt == 0 then ClosureState(0, s.b, 0, s.dtorCalls + [(s.a, s.b)])
    else s.(cnt := cnt)
  }

  /** What one invocation did: the state the wrapped function saw, the
      state afterwards, and the environment it was given. */
  datatype Invocation = Invocation(during: ClosureState, after: ClosureState, given: int)

  /** One call of the closure. `dropsSelf` says whether the wrapped function
      drops its own closure (one unref) while it runs. */
  function Invoke(s: ClosureState, dropsSelf: bool): (r: Invocation)
    ensures r.during.a == 0 && r.given == s.a
    ensures r.during.cnt == s.cnt + 1
    ensures s.cnt >= 1 && !dropsSelf ==> r.after == s
    ensures s.cnt == 1 && dropsSelf ==>
      r.after == ClosureState(0, s.b, 0, s.dtorCalls + [(s.a, s.b)])
  {
    var a := s.a;
    var during := s.(cnt := s.cnt + 1, a := 0);
    var returned := if dropsSelf then Unref(during) else during;
    Invocation(during, Unref(returned.(a := a)), a)
  }

  /** What happens to a closure: a call, a call during which it is dropped,
      or a drop from outside. */
  datatype ClosureEvent = Call | CallDropping | Drop

  function RunClosure(s: ClosureState, evs: seq<ClosureEvent>): ClosureState
    decreases |evs|
  {
    if |evs| == 0 then s
    else
      var next := match evs[0]
        case Call => Invoke(s, false).after
        case CallDropping => Invoke(s, true).after
        case Drop => Unref(s);
      RunClosure(next, evs[1..])
  }

  /** Any number of calls followed by the one drop (from outside or from
      within a call) destroys the closure exactly once, with its original
      environment. */
  lemma {:induction false} DestroyedOnce(a: int, b: int, evs: seq<ClosureEvent>)
    requires |evs| > 0 && evs[|evs| - 1] != Call
    requires forall i :: 0 <= i < |evs| - 1 ==> evs[i] == Call
    ensures RunClosure(MakeMutClosure(a, b), evs) == ClosureState(0, b, 0, [(a, b)])
  {
    CallsKeepState(MakeMutClosure(a, b), evs);
  }

  lemma {:induction false} CallsKeepState(s: ClosureState, evs: seq<ClosureEvent>)
    requires s.cnt == 1
    requires |evs| > 0 && evs[|evs| - 1] != Call
    requires forall i :: 0 <= i < |evs| - 1 ==> evs[i] == Call
    ensures RunClosure(s, evs) == ClosureState(0, s.b, 0, s.dtorCalls + [(s.a, s.b)])
    decreases |evs|
  {
    if |evs| > 1 {
      assert evs[0] == Call;
      CallsKeepState(Invoke(s, false).after, evs[1..]);
    } else {
      assert RunClosure(s, evs) == RunClosure(if evs[0] == Drop then Unref(s) else Invoke(s, true).after, []);
    }
  }

  // ------------------------------------------------------- module loading

  /** The loader's memory: the instance once one has been set up, and how
      many instantiations have happened. */
  datatype Loader<I> = Loader(wasm: Option<I>, instantiations: nat)

  /** `initSync` and the default export `__wbg_init`: an already loaded
      instance is returned as it is. Otherwise `instantiate` (the result of
      compiling the given module or fetching the given path) is raised when
      it fails, leaving nothing behind. An instance that was created is
      stored before its start function runs (`__wbg_finalize_init`), so it
      stays stored even when `start` throws and the call fails. */
  function Init<I>(l: Loader<I>, instantiate: Result<I, string>, start: Outcome<string>): (r: (Loader<I>, Result<I, string>))
    ensures l.wasm.Some? ==> r == (l, Ok(l.wasm.value))
    ensures l.wasm.None? && instantiate.Err? ==> r == (l, instantiate)
    ensures l.wasm.None? && instantiate.Ok? ==>
      r.0 == Loader(Some(instantiate.value), l.instantiations + 1)
    ensures l.wasm.None? && instantiate.Ok? ==>
      r.1 == (if start.Pass? then instantiate else Err(start.error))
  {
    match l.wasm
    case Some(w) => (l, Ok(w))
    case None =>
      match instantiate
      case Err(e) => (l, Err(e))
      case Ok(w) =>
        var l1 := Loader(Some(w), l.instantiations + 1);
        match start
        case Pass => (l1, Ok(w))
        case Fail(e) => (l1, Err(e))
  }

  /** Loading is idempotent: once an instance is stored, any later call
      returns that instance and never instantiates again. */
  lemma InitIdempotent<I>(l: Loader<I>, first: Result<I, string>, start: Outcome<string>,
                          later: Result<I, string>, laterStart: Outcome<string>)
    requires Init(l, first, start).1.Ok?
    ensures Init(Init(l, first, start).0, later, laterStart) == (Init(l, first, start).0, Init(l, first, start).1)
    ensures Init(l, first, start).0.instantiations <= l.instantiations + 1
  {
  }

  /** A failed start is not retried: the call fails, but the half-started
      instance stays stored, and the next call returns it as loaded without
      instantiating again. */
  lemma StartFailureSticks<I>(l: Loader<I>, inst: I, e: string,
                              later: Result<I, string>, laterStart: Outcome<string>)
    requires l.wasm.None?
    ensures Init(l, Ok(inst), Fail(e)).1 == Err(e)
    ensures Init(Init(l, Ok(inst), Fail(e)).0, later, laterStart)
         == (Loader(Some(inst), l.instantiations + 1), Ok(inst))
  {
  }
}

=== FILE: proxy.dfy ===
/** The RDCleanPath handshake of the WebSocket-to-RDP proxy, as far as it is
    sequential logic: waiting for the first binary message, taking the
    Request variant apart, sizing the X.224 response from its TPKT header
    (section 6 of RFC 1006), and choosing the TLS host name and the server
    address reported back. Sockets, TLS and DER coding are foreign; their
    results enter as parameters. */
module Proxy {
  import opened Common

  /** A WebSocket message as the server's framework delivers it. */
  datatype WsMessage = Text(text: string) | Binary(data: seq<Byte>) | Ping(payload: seq<Byte>)
                     | Pong(payload: seq<Byte>) | Close

  /** One item of the read half: a message or a transport error. The end of
      the stream is the end of the sequence. */
  datatype Item = Msg(msg: WsMessage) | WsError(text: string)

  datatype HandshakeError =
    | ClosedBeforeRequest
    | WebSocketFailure(text: string)
    | SendFailed
    | ExpectedRequest
    | DerEncodeFailed
    | ReadBodyFailed
    | ShortTpkt(length: nat)

  /** An item the first-message loop reads past without stopping. */
  predicate Skipped(it: Item) {
    it.Msg? && (it.msg.Text? || it.msg.Ping? || it.msg.Pong?)
  }

  /** The Pong replies owed for the items in `s`: one per Ping, same payload, same order. */
  function Replies(s: seq<Item>): (r: seq<WsMessage>)
    ensures |r| <= |s|
    ensures forall i :: 0 <= i < |r| ==> r[i].Pong?
  {
    if |s| == 0 then []
    else (if s[0].Msg? && s[0].msg.Ping? then [Pong(s[0].msg.payload)] else []) + Replies(s[1..])
  }

  /** What the first-message loop did: the replies it sent, how many items
      it read, and the request bytes or the reason it gave up. */
  datatype FirstMessage = FirstMessage(sent: seq<WsMessage>, consumed: nat, result: Result<seq<Byte>, HandshakeError>)

  /** The loop of `handle_rdp_connection` that waits for the request.
      `sendOk(k)` says whether the `k`-th Pong send (counting from
      `pongs`) succeeds. */
  function Scan(items: seq<Item>, sendOk: nat -> bool, pongs: nat): FirstMessage
    decreases |items|
  {
    if |items| == 0 then FirstMessage([], 0, Err(ClosedBeforeRequest))
    else
      match items[0]
      case WsError(e) => FirstMessage([], 1, Err(WebSocketFailure(e)))
      case Msg(Binary(data)) => FirstMessage([], 1, Ok(data))
      case Msg(Close) => FirstMessage([], 1, Err(ClosedBeforeRequest))
      case Msg(Ping(data)) =>
        if !sendOk(pongs) then FirstMessage([], 1, Err(SendFailed))
        else
          var rest := Scan(items[1..], sendOk, pongs + 1);
          FirstMessage([Pong(data)] + rest.sent, rest.consumed + 1, rest.result)
      case Msg(_) =>
        var rest := Scan(items[1..], sendOk, pongs);
        FirstMessage(rest.sent, rest.consumed + 1, rest.result)
  }

  /** What the loop promises about a run `r` over `items`. */
  ghost predicate ScanFacts(items: seq<Item>, sendOk: nat -> bool, r: FirstMessage) {
    && r.consumed <= |items|
    && (forall j :: 0 <= j < r.consumed - 1 ==> Skipped(items[j]))
    // the request is the first binary message and ends the reading
    && (r.result.Ok? ==> 0 < r.consumed && items[r.consumed - 1] == Msg(Binary(r.result.value)))
    // closing or ending the stream before any binary message is an error
    && (r.result == Err(ClosedBeforeRequest) ==>
          || (r.consumed == |items| && forall j :: 0 <= j < |items| ==> Skipped(items[j]))
          || (0 < r.consumed && items[r.consumed - 1] == Msg(Close)))
    && (r.result.Err? && r.result.error.WebSocketFailure? ==>
          0 < r.consumed && items[r.consumed - 1] == WsError(r.result.error.text))
    && (r.result == Err(SendFailed) ==>
          0 < r.consumed && items[r.consumed - 1].Msg? && items[r.consumed - 1].msg.Ping?)
    && (r.result.Err? ==> r.result.error in {ClosedBeforeRequest, SendFailed} || r.result.error.WebSocketFailure?)
  }

  /** The request is the first Binary message, read past only Text, Ping and
      Pong; Close, the end of the stream, a transport error or a failed Pong
      stop the loop with an error. */
  lemma {:induction false} ScanSpec(items: seq<Item>, sendOk: nat -> bool, pongs: nat)
    ensures ScanFacts(items, sendOk, Scan(items, sendOk, pongs))
    decreases |items|
  {
    if |items| > 0 && items[0].Msg? {
      var m := items[0].msg;
      if m.Ping? && sendOk(pongs) {
        ScanSpec(items[1..], sendOk, pongs + 1);
      } else if m.Text? || m.Pong? {
        ScanSpec(items[1..], sendOk, pongs);
      }
    }
  }

  /** With a working write half every Ping read is answered by a Pong with
      the same payload, in order. */
  lemma {:induction false} ScanAnswersPings(items: seq<Item>, sendOk: nat -> bool, pongs: nat)
    requires forall k :: sendOk(k)
    ensures Scan(items, sendOk, pongs).consumed <= |items|
    ensures Scan(items, sendOk, pongs).sent == Replies(items[..Scan(items, sendOk, pongs).consumed])
    decreases |items|
  {
    if |items| > 0 && items[0].Msg? {
      var m := items[0].msg;
      if m.Ping? || m.Text? || m.Pong? {
        var p := if m.Ping? then pongs + 1 else pongs;
        ScanAnswersPings(items[1..], sendOk, p);
        PrefixOfTail(items, Scan(items[1..], sendOk, p).consumed);
      }
    }
  }

  lemma PrefixOfTail<T>(s: seq<T>, n: nat)
    requires n < |s|
    ensures s[..n + 1] == [s[0]] + s[1..][..n]
  {
    assert forall k :: 0 <= k < n + 1 ==> s[..n + 1][k] == ([s[0]] + s[1..][..n])[k];
  }

  /** A run `r` over the rest of the items, continued from a point where
      `sent` was already sent and `read` items already read. */
  function After(sent: seq<WsMessage>, read: nat, r: FirstMessage): FirstMessage {
    FirstMessage(sent + r.sent, read + r.consumed, r.result)
  }

  /** One step of the loop: an answered Ping. */
  lemma ScanPing(items: seq<Item>, i: nat, sendOk: nat -> bool, pongs: nat, sent: seq<WsMessage>)
    requires i < |items| && items[i].Msg? && items[i].msg.Ping? && sendOk(pongs)
    ensures After(sent, i, Scan(items[i..], sendOk, pongs))
         == After(sent + [Pong(items[i].msg.payload)], i + 1, Scan(items[i + 1..], sendOk, pongs + 1))
  {
    var rest := items[i..];
    assert rest[0] == items[i] && rest[1..] == items[i + 1..];
    var tail := Scan(items[i + 1..], sendOk, pongs + 1).sent;
    assert sent + [Pong(items[i].msg.payload)] + tail == sent + ([Pong(items[i].msg.payload)] + tail);
  }

  /** One step of the loop: a Text or Pong read past. */
  lemma ScanSkip(items: seq<Item>, i: nat, sendOk: nat -> bool, pongs: nat, sent: seq<WsMessage>)
    requires i < |items| && items[i].Msg? && (items[i].msg.Text? || items[i].msg.Pong?)
    ensures After(sent, i, Scan(items[i..], sendOk, pongs))
         == After(sent, i + 1, Scan(items[i + 1..], sendOk, pongs))
  {
    var rest := items[i..];
    assert rest[0] == items[i] && rest[1..] == items[i + 1..];
  }

  /** The loop itself, reading one item per iteration. */
  method ReadRequest(items: seq<Item>, sendOk: nat -> bool) returns (sent: seq<WsMessage>, consumed: nat, result: Result<seq<Byte>, HandshakeError>)
    ensures FirstMessage(sent, consumed, result) == Scan(items, sendOk, 0)
  {
    var i := 0;
    var pongs := 0;
    sent := [];
    assert items[0..] == items;
    while i < |items|
      invariant 0 <= i <= |items|
      invariant pongs == |sent|
      invariant Scan(items, sendOk, 0) == After(sent, i, Scan(items[i..], sendOk, pongs))
      decreases |items| - i
    {
      ghost var rest := items[i..];
      assert rest[0] == items[i];
      match items[i] {
        case WsError(e) =>
          return sent, i + 1, Err(WebSocketFailure(e));
        case Msg(Binary(data)) =>
          return sent, i + 1, Ok(data);
        case Msg(Close) =>
          return sent, i + 1, Err(ClosedBeforeRequest);
        case Msg(Ping(data)) =>
          if !sendOk(pongs) {
            return sent, i + 1, Err(SendFailed);
          }
          ScanPing(items, i, sendOk, pongs, sent);
          sent := sent + [Pong(data)];
          pongs := pongs + 1;
        case Msg(_) =>
          ScanSkip(items, i, sendOk, pongs, sent);
      }
      i := i + 1;
    }
    return sent, i, Err(ClosedBeforeRequest);
  }

  /** The RDCleanPath PDU variants, with the fields this server reads. */
  datatype CleanPath =
    | Request(destination: string, x224ConnectionRequest: seq<Byte>)
    | Response(serverAddr: string, x224ConnectionResponse: seq<Byte>, serverCertChain: seq<seq<Byte>>)
    | GeneralErr(code: nat)
    | NegotiationErr(code: nat)

  /** The Request match: a Request yields the destination and the X.224
      bytes; anything else sends the general-error PDU (`errDer`, the
      encoder's output) when it can and fails. */
  function ExtractRequest(pdu: CleanPath, errDer: Option<seq<Byte>>, sendOk: bool): (r: (seq<WsMessage>, Result<(string, seq<Byte>), HandshakeError>))
    ensures r.1.Ok? <==> pdu.Request?
    ensures pdu.Request? ==> r == ([], Ok((pdu.destination, pdu.x224ConnectionRequest)))
    ensures !pdu.Request? && errDer.Some? && sendOk ==> r == ([Binary(errDer.value)], Err(ExpectedRequest))
    ensures !pdu.Request? && errDer.None? ==> r == ([], Err(DerEncodeFailed))
    ensures !pdu.Request? && errDer.Some? && !sendOk ==> r == ([], Err(SendFailed))
  {
    match pdu
    case Request(destination, x224) => ([], Ok((destination, x224)))
    case _ =>
      match errDer
      case None => ([], Err(DerEncodeFailed))
      case Some(bytes) => if sendOk then ([Binary(bytes)], Err(ExpectedRequest)) else ([], Err(SendFailed))
  }

  // ------------------------------------------------------------------ TPKT

  /** The TPKT packet length: bytes 2 and 3 of the header, big-endian. */
  function TpktLength(header: seq<Byte>): (n: nat)
    requires |header| == 4
    ensures n < 0x10000
  {
    header[2] as int * 256 + header[3] as int
  }

  /** A TPKT header (version 3, reserved 0) for a packet of `n` octets. */
  function TpktHeader(n: nat): (h: seq<Byte>)
    requires n < 0x10000
    ensures |h| == 4 && h[0] == 3 && h[1] == 0
  {
    [3, 0, n / 256, n % 256]
  }

  /** Decoding inverts encoding, and the length field is all the decoder
      reads: two headers agreeing on bytes 2 and 3 have the same length. */
  lemma TpktRoundTrip(n: nat, h: seq<Byte>)
    requires n < 0x10000 && |h| == 4
    ensures TpktLength(TpktHeader(n)) == n
    ensures TpktLength(h) == n <==> h[2..] == TpktHeader(n)[2..]
  {
    if TpktLength(h) == n {
      assert h[2] == n / 256 && h[3] == n % 256;
    }
  }

  /** The buffer code as written: a length below 4 makes the header copy
      index out of bounds. */
  datatype Buffered = Panicked | Failed(error: HandshakeError) | Filled(bytes: seq<Byte>)

  /** The X.224 response buffer as `handle_rdp_connection` builds it from
      the header and the bytes the server sends next (`stream`). */
  function ResponseBufferAsWritten(header: seq<Byte>, stream: seq<Byte>): (r: Buffered)
    requires |header| == 4
    ensures r == Panicked <==> TpktLength(header) < 4
  {
    var n := TpktLength(header);
    if n < 4 then Panicked
    else if n > 4 && |stream| < n - 4 then Failed(ReadBodyFailed)
    else Filled(header + stream[..n - 4])
  }

  /** The same buffer with a short length reported as an error. */
  function ResponseBuffer(header: seq<Byte>, stream: seq<Byte>): (r: Result<seq<Byte>, HandshakeError>)
    requires |header| == 4
    ensures r.Err? <==> TpktLength(header) < 4 || |stream| < TpktLength(header) - 4
    ensures TpktLength(header) < 4 ==> r == Err(ShortTpkt(TpktLength(header)))
    ensures r.Ok? ==>
      && |r.value| == TpktLength(header)
      && r.value[..4] == header
      && r.value[4..] == stream[..TpktLength(header) - 4]
  {
    var n := TpktLength(header);
    if n < 4 then Err(ShortTpkt(n))
    else if n > 4 && |stream| < n - 4 then Err(ReadBodyFailed)
    else
      var buf := header + stream[..n - 4];
      assert buf[..4] == header && buf[4..] == stream[..n - 4];
      Ok(buf)
  }

  /** A header announcing fewer than 4 octets crashes the code as written. */
  lemma ShortTpktPanics()
    ensures ResponseBufferAsWritten([3, 0, 0, 2], []) == Panicked
    ensures ResponseBuffer([3, 0, 0, 2], []) == Err(ShortTpkt(2))
  {
  }

  /** Wherever the code as written does not crash, the corrected buffer is
      the same. */
  lemma ResponseBufferAgrees(header: seq<Byte>, stream: seq<Byte>)
    requires |header| == 4
    ensures ResponseBufferAsWritten(header, stream) != Panicked ==>
      (match ResponseBuffer(header, stream)
       case Ok(b) => ResponseBufferAsWritten(header, stream) == Filled(b)
       case Err(e) => ResponseBufferAsWritten(header, stream) == Failed(e))
  {
  }

  // ------------------------------------------------------------- addresses

  /** `destination.split(':').next()`: everything before the first ':'. */
  function Hostname(destination: string): (r: string)
    ensures IsPrefix(r, destination)
    ensures ':' !in r
    ensures |r| < |destination| ==> destination[|r|] == ':'
  {
    if |destination| == 0 || destination[0] == ':' then []
    else [destination[0]] + Hostname(destination[1..])
  }

  /** The host part of "host:port" is the host; a destination without a
      ':' is its own host name. */
  lemma {:induction false} HostnameOfHostPort(host: string, port: string)
    requires ':' !in host
    ensures Hostname(host + ":" + port) == host
    ensures Hostname(host) == host
  {
    if |host| > 0 {
      HostnameOfHostPort(host[1..], port);
      assert (host + ":" + port)[1..] == host[1..] + ":" + port;
    }
  }

  /** The server address reported to the client: the peer address of the
      TCP stream when the socket can give it, else the destination. */
  function ServerAddr(peer: Option<string>, destination: string): (r: string)
    ensures peer.Some? ==> r == peer.value
    ensures peer.None? ==> r == destination
  {
    match peer
    case Some(a) => a
    case None => destination
  }
}

=== FILE: store.dfy ===
/** The SQLite `users` table behind the server, as a value. Rows are kept in
    insertion (rowid) order; the `PRIMARY KEY` on `id` and the `UNIQUE` on
    `username` are the table's invariant. Password hashing, id generation and
    `datetime('now')` are not computed here: their results are parameters. */
module UserStore {
  import opened Common

  /** A stored row, including the password hash. */
  datatype UserRow = UserRow(
    id: string, username: string, passwordHash: string, displayName: string,
    role: string, createdAt: string, updatedAt: string)

  /** The public view handed out by the API: everything but the hash. */
  datatype User = User(
    id: string, username: string, displayName: string, role: string,
    createdAt: string, updatedAt: string)

  type Table = seq<UserRow>

  /** Store failures: a violated constraint (SQLite's message text) or a
      failure of the password hasher. */
  datatype DbError = Constraint(text: string) | Hashing(text: string)

  function ErrorText(e: DbError): string {
    match e
    case Constraint(t) => t
    case Hashing(t) => t
  }

  const UniqueIdViolation: DbError := Constraint("UNIQUE constraint failed: users.id")
  const UniqueUsernameViolation: DbError := Constraint("UNIQUE constraint failed: users.username")

  /** What a store call leaves behind: the table and the call's result. */
  datatype Reply<+T> = Reply(table: Table, result: Result<T, DbError>)

  /** `PRIMARY KEY (id)` and `UNIQUE (username)`. */
  predicate Valid(t: Table) {
    forall i, j :: 0 <= i < j < |t| ==> t[i].id != t[j].id && t[i].username != t[j].username
  }

  ghost predicate HasId(t: Table, id: string) {
    exists k :: 0 <= k < |t| && t[k].id == id
  }

  ghost predicate HasUsername(t: Table, name: string) {
    exists k :: 0 <= k < |t| && t[k].username == name
  }

  function ToPublic(r: UserRow): (u: User)
    ensures u.id == r.id && u.username == r.username && u.displayName == r.displayName
    ensures u.role == r.role && u.createdAt == r.createdAt && u.updatedAt == r.updatedAt
  {
    User(r.id, r.username, r.displayName, r.role, r.createdAt, r.updatedAt)
  }

  /** Two rows have the same public view exactly when they differ at most in
      their password hash. */
  lemma ToPublicForgetsOnlyHash(a: UserRow, b: UserRow)
    ensures ToPublic(a) == ToPublic(b) <==> a == b.(passwordHash := a.passwordHash)
  {
  }

  // ------------------------------------------------------------- lookups

  /** Position of the first row whose id is `id`. */
  function IndexOfId(t: Table, id: string): (r: Option<nat>)
    ensures r.Some? ==> r.value < |t| && t[r.value].id == id
    ensures r.Some? ==> forall k :: 0 <= k < r.value ==> t[k].id != id
    ensures r.None? ==> forall k :: 0 <= k < |t| ==> t[k].id != id
    decreases |t|
  {
    if |t| == 0 then None
    else if t[0].id == id then Some(0)
    else match IndexOfId(t[1..], id)
      case None => None
      case Some(k) => Some(k + 1)
  }

  /** Position of the first row whose username is `name`. */
  function IndexOfUsername(t: Table, name: string): (r: Option<nat>)
    ensures r.Some? ==> r.value < |t| && t[r.value].username == name
    ensures r.Some? ==> forall k :: 0 <= k < r.value ==> t[k].username != name
    ensures r.None? ==> forall k :: 0 <= k < |t| ==> t[k].username != name
    decreases |t|
  {
    if |t| == 0 then None
    else if t[0].username == name then Some(0)
    else match IndexOfUsername(t[1..], name)
      case None => None
      case Some(k) => Some(k + 1)
  }

  /** `SELECT ... WHERE id = ?1`, first row: in a valid table, the one row
      with that id, or nothing when there is none. */
  function GetUserById(t: Table, id: string): (r: Option<UserRow>)
    ensures r.Some? <==> HasId(t, id)
    ensures r.Some? ==> r.value in t && r.value.id == id
    ensures Valid(t) && r.Some? ==> forall k :: 0 <= k < |t| && t[k].id == id ==> t[k] == r.value
    ensures Valid(t) ==> forall row :: row in t && row.id == id ==> r == Some(row)
  {
    var r := match IndexOfId(t, id) case None => None case Some(k) => Some(t[k]);
    assert Valid(t) ==> forall row :: row in t && row.id == id ==> r == Some(row) by {
      if Valid(t) {
        forall row | row in t && row.id == id
          ensures r == Some(row)
        {
          var k :| 0 <= k < |t| && t[k] == row;
        }
      }
    }
    r
  }

  /** `SELECT ... WHERE username = ?1`, first row. */
  function GetUserByUsername(t: Table, name: string): (r: Option<UserRow>)
    ensures r.Some? <==> HasUsername(t, name)
    ensures r.Some? ==> r.value in t && r.value.username == name
    ensures Valid(t) && r.Some? ==> forall k :: 0 <= k < |t| && t[k].username == name ==> t[k] == r.value
    ensures Valid(t) ==> forall row :: row in t && row.username == name ==> r == Some(row)
  {
    var r := match IndexOfUsername(t, name) case None => None case Some(k) => Some(t[k]);
    assert Valid(t) ==> forall row :: row in t && row.username == name ==> r == Some(row) by {
      if Valid(t) {
        forall row | row in t && row.username == name
          ensures r == Some(row)
        {
          var k :| 0 <= k < |t| && t[k] == row;
        }
      }
    }
    r
  }

  // ---------------------------------------------------- ORDER BY created_at

  predicate SortedByCreated(s: seq<User>) {
    forall i, j :: 0 <= i < j < |s| ==> LexLe(s[i].createdAt, s[j].createdAt)
  }

  function InsertByCreated(u: User, s: seq<User>): (r: seq<User>)
    requires SortedByCreated(s)
    ensures SortedByCreated(r)
    ensures multiset(r) == multiset(s) + multiset{u}
    ensures forall j :: 0 <= j < |r| ==> r[j] == u || r[j] in s
    decreases |s|
  {
    if |s| == 0 then [u]
    else if LexLe(u.createdAt, s[0].createdAt) then
      BelowHeadBelowAll(u, s);
      [u] + s
    else
      LexLeTotal(u.createdAt, s[0].createdAt);
      var rest := InsertByCreated(u, s[1..]);
      HeadStaysFirst(u, s, rest);
      assert s == [s[0]] + s[1..];
      [s[0]] + rest
  }

  lemma BelowHeadBelowAll(u: User, s: seq<User>)
    requires SortedByCreated(s) && |s| > 0 && LexLe(u.createdAt, s[0].createdAt)
    ensures SortedByCreated([u] + s)
  {
    forall i, j | 0 <= i < j < |[u] + s|
      ensures LexLe(([u] + s)[i].createdAt, ([u] + s)[j].createdAt)
    {
      if i == 0 && j > 1 {
        LexLeTransitive(u.createdAt, s[0].createdAt, s[j - 1].createdAt);
      }
    }
  }

  lemma HeadStaysFirst(u: User, s: seq<User>, rest: seq<User>)
    requires SortedByCreated(s) && |s| > 0 && LexLe(s[0].createdAt, u.createdAt)
    requires SortedByCreated(rest)
    requires forall j :: 0 <= j < |rest| ==> rest[j] == u || rest[j] in s[1..]
    ensures SortedByCreated([s[0]] + rest)
    ensures forall j :: 0 <= j < |[s[0]] + rest| ==> ([s[0]] + rest)[j] == u || ([s[0]] + rest)[j] in s
  {
    var r := [s[0]] + rest;
    forall i, j | 0 <= i < j < |r| ensures LexLe(r[i].createdAt, r[j].createdAt) {
      if i == 0 && rest[j - 1] != u {
        var k :| 0 <= k < |s[1..]| && s[1..][k] == rest[j - 1];
        assert s[k + 1] == rest[j - 1];
      }
    }
  }

  function SortByCreated(s: seq<User>): (r: seq<User>)
    ensures SortedByCreated(r)
    ensures multiset(r) == multiset(s)
    decreases |s|
  {
    if |s| == 0 then []
    else
      assert s == [s[0]] + s[1..];
      InsertByCreated(s[0], SortByCreated(s[1..]))
  }

  function PublicViews(t: Table): (r: seq<User>)
    ensures |r| == |t| && forall k :: 0 <= k < |t| ==> r[k] == ToPublic(t[k])
  {
    seq(|t|, k requires 0 <= k < |t| => ToPublic(t[k]))
  }

  /** `list_users`: every row's public view, each exactly once, ordered by
      creation time. */
  function ListUsers(t: Table): (r: seq<User>)
    ensures SortedByCreated(r)
    ensures multiset(r) == multiset(PublicViews(t))
    ensures |r| == |t|
  {
    assert |multiset(SortByCreated(PublicViews(t)))| == |t|;
    SortByCreated(PublicViews(t))
  }

  // ----------------------------------------------------------- mutations

  /** `INSERT INTO users (...)`: refused by either uniqueness constraint. */
  function Insert(t: Table, row: UserRow): (r: Result<Table, DbError>)
    ensures r.Ok? <==> !HasId(t, row.id) && !HasUsername(t, row.username)
    ensures r.Ok? ==> r.value == t + [row]
    ensures r.Err? ==> r.error.Constraint? && Contains(r.error.text, "UNIQUE")
    ensures Valid(t) && r.Ok? ==> Valid(r.value)
  {
    UniqueViolationsSayUnique();
    if IndexOfId(t, row.id).Some? then Err(UniqueIdViolation)
    else if IndexOfUsername(t, row.username).Some? then Err(UniqueUsernameViolation)
    else
      AppendValid(t, row);
      Ok(t + [row])
  }

  /** Both constraint messages mention "UNIQUE", which is how callers
      recognise a conflict. */
  lemma UniqueViolationsSayUnique()
    ensures Contains(ErrorText(UniqueIdViolation), "UNIQUE")
    ensures Contains(ErrorText(UniqueUsernameViolation), "UNIQUE")
  {
    assert ErrorText(UniqueIdViolation)[..6] == "UNIQUE";
    assert ErrorText(UniqueUsernameViolation)[..6] == "UNIQUE";
  }

  /** A row whose id and username are both new keeps the table valid. */
  lemma AppendValid(t: Table, row: UserRow)
    requires !HasId(t, row.id) && !HasUsername(t, row.username)
    ensures Valid(t) ==> Valid(t + [row])
  {
    var r := t + [row];
    if Valid(t) {
      forall i, j | 0 <= i < j < |r|
        ensures r[i].id != r[j].id && r[i].username != r[j].username
      {
        assert r[i] == t[i];
        if j < |t| { assert r[j] == t[j]; }
      }
    }
  }

  /** `initialize`: seeds the root administrator when the table is empty.
      `hash` is the hasher's result for the default password. */
  function Initialize(t: Table, freshId: string, hash: Result<string, string>, now: string): (r: Reply<()>)
    ensures |t| > 0 ==> r == Reply(t, Ok(()))
    ensures |t| == 0 && hash.Err? ==> r == Reply(t, Err(Hashing(hash.error)))
    ensures |t| == 0 && hash.Ok? ==>
      && r.result.Ok? && |r.table| == 1
      && r.table[0].username == "root" && r.table[0].role == "admin"
      && r.table[0].displayName == "Administrador" && r.table[0].id == freshId
      && r.table[0].passwordHash == hash.value
    ensures Valid(t) ==> Valid(r.table)
  {
    if |t| > 0 then Reply(t, Ok(()))
    else match hash
      case Err(e) => Reply(t, Err(Hashing(e)))
      case Ok(h) =>
        match Insert(t, UserRow(freshId, "root", h, "Administrador", "admin", now, now))
        case Ok(t1) => Reply(t1, Ok(()))
        case Err(e) => Reply(t, Err(e))
  }

  /** `create_user`: hashes, inserts a row under a fresh id, and reads it
      back. `hash` is the hasher's result for the given password. */
  function CreateUser(t: Table, username: string, hash: Result<string, string>,
                      displayName: string, role: string, freshId: string, now: string): (r: Reply<User>)
    ensures r.result.Err? ==> r.table == t
    ensures hash.Err? ==> r.result == Err(Hashing(hash.error))
    ensures hash.Ok? && HasUsername(t, username) ==>
      r.result.Err? && r.result.error.Constraint? && Contains(r.result.error.text, "UNIQUE")
    ensures r.result.Ok? <==> hash.Ok? && !HasUsername(t, username) && !HasId(t, freshId)
    ensures r.result.Ok? ==>
      && r.table == t + [UserRow(freshId, username, hash.value, displayName, role, now, now)]
      && r.result.value == User(freshId, username, displayName, role, now, now)
    ensures Valid(t) ==> Valid(r.table)
  {
    match hash
    case Err(e) => Reply(t, Err(Hashing(e)))
    case Ok(h) =>
      match Insert(t, UserRow(freshId, username, h, displayName, role, now, now))
      case Err(e) => Reply(t, Err(e))
      case Ok(t1) =>
        assert t1[|t|].id == freshId;
        Reply(t1, Ok(ToPublic(GetUserById(t1, freshId).value)))
  }

  /** One `UPDATE users SET <column> = ?1, updated_at = datetime('now')`. */
  datatype Assignment = SetDisplayName(name: string) | SetRole(role: string) | SetHash(hash: string)

  function Assign(row: UserRow, a: Assignment, now: string): UserRow {
    match a
    case SetDisplayName(v) => row.(displayName := v, updatedAt := now)
    case SetRole(v) => row.(role := v, updatedAt := now)
    case SetHash(v) => row.(passwordHash := v, updatedAt := now)
  }

  /** `UPDATE ... WHERE id = ?2`: the assignment hits every row with that id
      and nothing else. */
  function UpdateWhereId(t: Table, id: string, a: Assignment, now: string): (r: Table)
    ensures |r| == |t|
    ensures forall k :: 0 <= k < |t| && t[k].id != id ==> r[k] == t[k]
    ensures forall k :: 0 <= k < |t| && t[k].id == id ==>
      && r[k].id == id && r[k].username == t[k].username && r[k].createdAt == t[k].createdAt
      && r[k].updatedAt == now
      && r[k].displayName == (if a.SetDisplayName? then a.name else t[k].displayName)
      && r[k].role == (if a.SetRole? then a.role else t[k].role)
      && r[k].passwordHash == (if a.SetHash? then a.hash else t[k].passwordHash)
    ensures Valid(t) ==> Valid(r)
    ensures !HasId(t, id) ==> r == t
  {
    seq(|t|, k requires 0 <= k < |t| => if t[k].id == id then Assign(t[k], a, now) else t[k])
  }

  function MaybeAssign(row: UserRow, a: Option<Assignment>, now: string): UserRow {
    match a
    case None => row
    case Some(x) => Assign(row, x, now)
  }

  function MaybeUpdate(t: Table, id: string, a: Option<Assignment>, now: string): (r: Table)
    ensures |r| == |t|
    ensures forall k :: 0 <= k < |t| ==> r[k] == if t[k].id == id then MaybeAssign(t[k], a, now) else t[k]
    ensures forall k :: 0 <= k < |t| ==> r[k].id == t[k].id && r[k].username == t[k].username
  {
    match a
    case None => t
    case Some(x) => UpdateWhereId(t, id, x, now)
  }

  function DisplayNameStatement(v: Option<string>): Option<Assignment> {
    match v case Some(x) => Some(SetDisplayName(x)) case None => None
  }

  function RoleStatement(v: Option<string>): Option<Assignment> {
    match v case Some(x) => Some(SetRole(x)) case None => None
  }

  function HashStatement(v: Option<string>): Option<Assignment> {
    match v case Some(x) => Some(SetHash(x)) case None => None
  }

  /** A row after `update_user`'s statements: the fields given are replaced,
      the others kept; `updated_at` moves only if some statement ran. */
  function Patch(row: UserRow, displayName: Option<string>, role: Option<string>,
                 hash: Option<string>, now: string): (p: UserRow)
    ensures p.id == row.id && p.username == row.username && p.createdAt == row.createdAt
    ensures p.displayName == (if displayName.Some? then displayName.value else row.displayName)
    ensures p.role == (if role.Some? then role.value else row.role)
    ensures p.passwordHash == (if hash.Some? then hash.value else row.passwordHash)
    ensures p.updatedAt == (if displayName.Some? || role.Some? || hash.Some? then now else row.updatedAt)
  {
    MaybeAssign(MaybeAssign(MaybeAssign(row, DisplayNameStatement(displayName), now),
                            RoleStatement(role), now),
                HashStatement(hash), now)
  }

  /** The hash `update_user` stores: present only when a password was given
      and hashing it succeeded. */
  function StoredHash(password: Option<Result<string, string>>): Option<string> {
    match password
    case Some(Ok(h)) => Some(h)
    case _ => None
  }

  /** The three statements together patch exactly the rows with that id. */
  lemma StatementsPatch(t: Table, id: string, dn: Option<string>, role: Option<string>,
                        hash: Option<string>, now: string)
    ensures
      var t3 := MaybeUpdate(MaybeUpdate(MaybeUpdate(t, id, DisplayNameStatement(dn), now),
                                        id, RoleStatement(role), now),
                            id, HashStatement(hash), now);
      && |t3| == |t|
      && (forall k :: 0 <= k < |t| ==> t3[k] == if t[k].id == id then Patch(t[k], dn, role, hash, now) else t[k])
      && SameKeys(t, t3)
  {
  }

  /** `update_user`: applies the display-name, role and password updates that
      are present, in that order, as separate statements, then reads the row
      back. A hasher failure comes after the first two updates have already
      been applied. `password` is absent, or the hasher's result for the new
      password. */
  function UpdateUser(t: Table, id: string, displayName: Option<string>, role: Option<string>,
                      password: Option<Result<string, string>>, now: string): (r: Reply<Option<User>>)
    ensures |r.table| == |t|
    ensures forall k :: 0 <= k < |t| ==>
      r.table[k] == if t[k].id == id then Patch(t[k], displayName, role, StoredHash(password), now) else t[k]
    ensures password.Some? && password.value.Err? <==> r.result.Err?
    ensures r.result.Ok? ==> (r.result.value.None? <==> !HasId(t, id))
    ensures Valid(t) && r.result.Ok? && r.result.value.Some? ==>
      forall k :: 0 <= k < |t| && t[k].id == id ==> r.result.value.value == ToPublic(r.table[k])
    ensures Valid(t) ==> Valid(r.table)
  {
    var t1 := MaybeUpdate(t, id, DisplayNameStatement(displayName), now);
    var t2 := MaybeUpdate(t1, id, RoleStatement(role), now);
    var t3 := MaybeUpdate(t2, id, HashStatement(StoredHash(password)), now);
    StatementsPatch(t, id, displayName, role, StoredHash(password), now);
    SameIdsValid(t, t3);
    SameIdsSameHasId(t, t3, id);
    if password.Some? && password.value.Err? then
      assert t3 == t2;
      Reply(t2, Err(Hashing(password.value.error)))
    else
      Reply(t3, Ok(match GetUserById(t3, id) case None => None case Some(u) => Some(ToPublic(u))))
  }

  /** Tables whose rows agree position by position on id and username. */
  predicate SameKeys(a: Table, b: Table) {
    |a| == |b| && forall k :: 0 <= k < |a| ==> a[k].id == b[k].id && a[k].username == b[k].username
  }

  lemma SameIdsValid(a: Table, b: Table)
    requires SameKeys(a, b)
    ensures Valid(a) ==> Valid(b)
  {
  }

  lemma SameIdsSameHasId(a: Table, b: Table, id: string)
    requires SameKeys(a, b)
    ensures HasId(a, id) <==> HasId(b, id)
  {
    if HasId(a, id) { var k :| 0 <= k < |a| && a[k].id == id; assert b[k].id == id; }
    if HasId(b, id) { var k :| 0 <= k < |b| && b[k].id == id; assert a[k].id == id; }
  }

  /** The table without the rows whose id is `id`. */
  function Without(t: Table, id: string): (r: Table)
    ensures forall row :: row in r <==> row in t && row.id != id
    ensures |r| <= |t|
    decreases |t|
  {
    if |t| == 0 then []
    else if t[0].id == id then Without(t[1..], id)
    else [t[0]] + Without(t[1..], id)
  }

  /** Removing rows keeps ids and usernames unique. */
  lemma {:induction false} WithoutValid(t: Table, id: string)
    requires Valid(t)
    ensures Valid(Without(t, id))
    decreases |t|
  {
    if |t| > 0 {
      assert Valid(t[1..]);
      WithoutValid(t[1..], id);
      if t[0].id != id {
        var rest := Without(t[1..], id);
        var r := [t[0]] + rest;
        forall j | 0 < j < |r|
          ensures r[0].id != r[j].id && r[0].username != r[j].username
        {
          assert r[j] == rest[j - 1] && rest[j - 1] in t[1..];
          var k :| 0 <= k < |t[1..]| && t[1..][k] == rest[j - 1];
          assert t[k + 1] == r[j];
        }
      }
    }
  }

  /** `delete_user`: reports whether a row was removed; afterwards no row has
      that id and every other row remains. */
  function DeleteUser(t: Table, id: string): (r: Reply<bool>)
    ensures r.result.Ok? && (r.result.value <==> HasId(t, id))
    ensures forall row :: row in r.table <==> row in t && row.id != id
    ensures !HasId(r.table, id)
    ensures Valid(t) ==> Valid(r.table)
  {
    var t1 := Without(t, id);
    assert Valid(t) ==> Valid(t1) by {
      if Valid(t) { WithoutValid(t, id); }
    }
    assert HasId(t, id) ==> |t1| < |t| by {
      if HasId(t, id) { WithoutShrinks(t, id); }
    }
    assert !HasId(t, id) ==> |t1| == |t| by {
      if !HasId(t, id) { WithoutKeepsAll(t, id); }
    }
    Reply(t1, Ok(|t1| < |t|))
  }

  lemma {:induction false} WithoutShrinks(t: Table, id: string)
    requires HasId(t, id)
    ensures |Without(t, id)| < |t|
    decreases |t|
  {
    if t[0].id != id {
      var k :| 0 <= k < |t| && t[k].id == id;
      assert t[1..][k - 1].id == id;
      WithoutShrinks(t[1..], id);
    }
  }

  lemma {:induction false} WithoutKeepsAll(t: Table, id: string)
    requires forall k :: 0 <= k < |t| ==> t[k].id != id
    ensures Without(t, id) == t
    decreases |t|
  {
    if |t| > 0 {
      assert t[0].id != id;
      assert forall k :: 0 <= k < |t[1..]| ==> t[1..][k].id == t[k + 1].id;
      WithoutKeepsAll(t[1..], id);
      assert t == [t[0]] + t[1..];
    }
  }

  /** `update_password`: only the hash and `updated_at` of the matching row
      change; an unknown id changes nothing and still succeeds. */
  function UpdatePassword(t: Table, id: string, hash: Result<string, string>, now: string): (r: Reply<()>)
    ensures hash.Err? ==> r == Reply(t, Err(Hashing(hash.error)))
    ensures hash.Ok? ==> r.result == Ok(()) && |r.table| == |t|
    ensures hash.Ok? ==> forall k :: 0 <= k < |t| ==>
      && (t[k].id != id ==> r.table[k] == t[k])
      && (t[k].id == id ==> r.table[k] == t[k].(passwordHash := hash.value, updatedAt := now))
    ensures !HasId(t, id) ==> r.table == t
    ensures Valid(t) ==> Valid(r.table)
  {
    match hash
    case Err(e) => Reply(t, Err(Hashing(e)))
    case Ok(h) => Reply(UpdateWhereId(t, id, SetHash(h), now), Ok(()))
  }
}

=== FILE: users.dfy ===
/** The administrator-only user-management endpoints. Each handler maps the
    caller's headers, the request body and the table to a response and the
    table afterwards. */
module Users {
  import opened Common
  import opened UserStore
  import opened Auth

  const AdminOnly := ApiError(403, "Acesso restrito a administradores")
  const CredentialsRequired := ApiError(400, "Usuário e senha são obrigatórios")
  const BadRole := ApiError(400, "Role deve ser 'admin' ou 'user'")
  const UserExists := ApiError(409, "Usuário já existe")
  const CreateFailure := ApiError(500, "Erro ao criar usuário")
  const UpdateFailure := ApiError(500, "Erro ao atualizar")
  const SelfDelete := ApiError(400, "Não é possível excluir o próprio usuário")

  /** A handler's effect: the table afterwards and the response. */
  datatype Answer<+T> = Answer(table: Table, response: Result<T, ApiError>)

  datatype CreateUserRequest = CreateUserRequest(
    username: string, password: string, displayName: Option<string>, role: Option<string>)

  datatype UpdateUserRequest = UpdateUserRequest(
    displayName: Option<string>, role: Option<string>, password: Option<string>)

  predicate IsRole(r: string) {
    r == "admin" || r == "user"
  }

  /** `require_admin`: authentication failures pass through unchanged; an
      authenticated caller who is not an administrator gets 403. */
  function RequireAdmin(h: Headers, c: Crypto): (r: Result<Claims, ApiError>)
    ensures ExtractAuth(h, c).Err? ==> r == ExtractAuth(h, c)
    ensures ExtractAuth(h, c).Ok? ==>
      (if ExtractAuth(h, c).value.role == "admin" then r == ExtractAuth(h, c) else r == Err(AdminOnly))
    ensures r.Ok? <==> ExtractAuth(h, c).Ok? && ExtractAuth(h, c).value.role == "admin"
  {
    match ExtractAuth(h, c)
    case Err(e) => Err(e)
    case Ok(claims) => if claims.role != "admin" then Err(AdminOnly) else Ok(claims)
  }

  function ListUsersHandler(h: Headers, t: Table, c: Crypto): (r: Result<seq<User>, ApiError>)
    ensures RequireAdmin(h, c).Err? ==> r == Err(RequireAdmin(h, c).error)
    ensures RequireAdmin(h, c).Ok? ==>
      (r.Ok? && SortedByCreated(r.value) && multiset(r.value) == multiset(PublicViews(t)))
  {
    match RequireAdmin(h, c)
    case Err(e) => Err(e)
    case Ok(_) => Ok(ListUsers(t))
  }

  /** Maps a store failure from `create_user`: a message mentioning UNIQUE
      is a conflict, anything else an internal error. */
  function CreateErrorResponse(e: DbError): (r: ApiError)
    ensures r == UserExists <==> Contains(ErrorText(e), "UNIQUE")
    ensures r == UserExists || r == CreateFailure
  {
    if Contains(ErrorText(e), "UNIQUE") then UserExists else CreateFailure
  }

  /** `create_user`. `hash` is the hasher's result for the password; a
      successful response carries status 201. */
  function CreateUserHandler(h: Headers, t: Table, c: Crypto, body: CreateUserRequest,
                             hash: Result<string, string>, freshId: string, now: string): (r: Answer<(int, User)>)
    // the admin check comes first, and no failure changes the table
    ensures RequireAdmin(h, c).Err? ==> r == Answer(t, Err(RequireAdmin(h, c).error))
    ensures r.response.Err? ==> r.table == t
    // a blank username or an empty password is refused
    ensures RequireAdmin(h, c).Ok?
      && ((forall i :: 0 <= i < |body.username| ==> IsWhitespace(body.username[i])) || body.password == "")
      ==> r == Answer(t, Err(CredentialsRequired))
    // a role other than admin or user is refused
    ensures RequireAdmin(h, c).Ok? && Trim(body.username) != "" && body.password != ""
      && body.role.Some? && !IsRole(body.role.value)
      ==> r == Answer(t, Err(BadRole))
    // a taken username is a conflict
    ensures RequireAdmin(h, c).Ok? && Trim(body.username) != "" && body.password != ""
      && (body.role.None? || IsRole(body.role.value)) && hash.Ok? && HasUsername(t, body.username)
      ==> r == Answer(t, Err(UserExists))
    // past those checks, the insert succeeds exactly when the hasher did and
    // neither the name nor the id is taken; a hasher failure is reported as such
    ensures RequireAdmin(h, c).Ok? && Trim(body.username) != "" && body.password != ""
      && (body.role.None? || IsRole(body.role.value))
      ==> (r.response.Ok? <==> hash.Ok? && !HasUsername(t, body.username) && !HasId(t, freshId))
    ensures RequireAdmin(h, c).Ok? && Trim(body.username) != "" && body.password != ""
      && (body.role.None? || IsRole(body.role.value)) && hash.Err?
      ==> r == Answer(t, Err(CreateErrorResponse(Hashing(hash.error))))
    // success: 201 and one new row with the untrimmed name and the defaults filled in
    ensures r.response.Ok? ==>
      && RequireAdmin(h, c).Ok? && hash.Ok?
      && var role := if body.role.Some? then body.role.value else "user";
         var name := if body.displayName.Some? then body.displayName.value else "";
         && IsRole(role)
         && r.table == t + [UserRow(freshId, body.username, hash.value, name, role, now, now)]
         && r.response.value == (201, User(freshId, body.username, name, role, now, now))
    ensures Valid(t) ==> Valid(r.table)
  {
    match RequireAdmin(h, c)
    case Err(e) => Answer(t, Err(e))
    case Ok(_) =>
      TrimEmptyIff(body.username);
      if Trim(body.username) == "" || body.password == "" then Answer(t, Err(CredentialsRequired))
      else
        var role := match body.role case Some(v) => v case None => "user";
        if role != "admin" && role != "user" then Answer(t, Err(BadRole))
        else
          var displayName := match body.displayName case Some(v) => v case None => "";
          var reply := CreateUser(t, body.username, hash, displayName, role, freshId, now);
          match reply.result
          case Err(e) => Answer(t, Err(CreateErrorResponse(e)))
          case Ok(user) => Answer(reply.table, Ok((201, user)))
  }

  /** `get_user`: the public view of the row with that id, or 404. */
  function GetUserHandler(h: Headers, t: Table, c: Crypto, id: string): (r: Result<User, ApiError>)
    ensures RequireAdmin(h, c).Err? ==> r == Err(RequireAdmin(h, c).error)
    ensures RequireAdmin(h, c).Ok? && !HasId(t, id) ==> r == Err(UserNotFound)
    ensures r.Ok? ==> exists row :: row in t && row.id == id && r.value == ToPublic(row)
    ensures Valid(t) && RequireAdmin(h, c).Ok? ==>
      forall row :: row in t && row.id == id ==> r == Ok(ToPublic(row))
  {
    match RequireAdmin(h, c)
    case Err(e) => Err(e)
    case Ok(_) =>
      match GetUserById(t, id)
      case None => Err(UserNotFound)
      case Some(row) => Ok(ToPublic(row))
  }

  /** `update_user`: an invalid role is refused before the store is touched;
      an unknown id is 404. A hasher failure is a 500 that comes after the
      display-name and role statements have already run. `hash` is the
      hasher's result for the new password, used only when one is given. */
  function UpdateUserHandler(h: Headers, t: Table, c: Crypto, id: string, body: UpdateUserRequest,
                             hash: Result<string, string>, now: string): (r: Answer<User>)
    ensures RequireAdmin(h, c).Err? ==> r == Answer(t, Err(RequireAdmin(h, c).error))
    ensures RequireAdmin(h, c).Ok? && body.role.Some? && !IsRole(body.role.value) ==> r == Answer(t, Err(BadRole))
    ensures RequireAdmin(h, c).Ok? && (body.role.None? || IsRole(body.role.value))
      && (body.password.None? || hash.Ok?) && !HasId(t, id)
      ==> r == Answer(t, Err(UserNotFound))
    // past the role check, the update succeeds exactly when the id exists and
    // any new password was hashed; a hasher failure is a 500
    ensures RequireAdmin(h, c).Ok? && (body.role.None? || IsRole(body.role.value))
      ==> (r.response.Ok? <==> (body.password.None? || hash.Ok?) && HasId(t, id))
    ensures RequireAdmin(h, c).Ok? && (body.role.None? || IsRole(body.role.value))
      && body.password.Some? && hash.Err?
      ==> r.response == Err(UpdateFailure)
    ensures r.response.Ok? ==>
      && RequireAdmin(h, c).Ok? && (body.password.None? || hash.Ok?)
      && UpdatedRows(t, r, id, body, hash, now)
    ensures r.response.Err? && r.response.error != UpdateFailure ==> r.table == t
    ensures Valid(t) ==> Valid(r.table)
  {
    match RequireAdmin(h, c)
    case Err(e) => Answer(t, Err(e))
    case Ok(_) =>
      if body.role.Some? && body.role.value != "admin" && body.role.value != "user" then
        Answer(t, Err(BadRole))
      else
        ApplyUpdate(t, id, body, hash, now)
  }

  /** A successful update's table and response: the rows with that id are
      patched, every other row is kept, and the response is the patched
      row's public view. */
  ghost predicate UpdatedRows(t: Table, r: Answer<User>, id: string, body: UpdateUserRequest,
                              hash: Result<string, string>, now: string)
    requires r.response.Ok? && (body.password.None? || hash.Ok?)
  {
    && |r.table| == |t|
    && (forall k :: 0 <= k < |t| && t[k].id != id ==> r.table[k] == t[k])
    && (forall k :: 0 <= k < |t| && t[k].id == id ==>
          && r.table[k] == Patch(t[k], body.displayName, body.role,
                                 if body.password.Some? then Some(hash.value) else None, now)
          && (Valid(t) ==> r.response.value == ToPublic(r.table[k])))
  }

  /** The part of `update_user` after the role check: the three statements
      and the re-read of the row. */
  function ApplyUpdate(t: Table, id: string, body: UpdateUserRequest,
                       hash: Result<string, string>, now: string): (r: Answer<User>)
    ensures (body.password.None? || hash.Ok?) && !HasId(t, id) ==> r == Answer(t, Err(UserNotFound))
    ensures r.response.Ok? <==> (body.password.None? || hash.Ok?) && HasId(t, id)
    ensures body.password.Some? && hash.Err? ==> r.response == Err(UpdateFailure)
    ensures r.response.Ok? ==> UpdatedRows(t, r, id, body, hash, now)
    ensures r.response.Err? && r.response.error != UpdateFailure ==> r.table == t
    ensures Valid(t) ==> Valid(r.table)
  {
    var password := if body.password.Some? then Some(hash) else None;
    var reply := UpdateUser(t, id, body.displayName, body.role, password, now);
    match reply.result
    case Err(_) => Answer(reply.table, Err(UpdateFailure))
    case Ok(None) =>
      assert reply.table == t by {
        assert forall k :: 0 <= k < |t| ==> t[k].id != id;
      }
      Answer(reply.table, Err(UserNotFound))
    case Ok(Some(user)) => Answer(reply.table, Ok(user))
  }

  /** `delete_user`: the caller may not delete their own id; an id with no
      row is 404. */
  function DeleteUserHandler(h: Headers, t: Table, c: Crypto, id: string): (r: Answer<()>)
    ensures RequireAdmin(h, c).Err? ==> r == Answer(t, Err(RequireAdmin(h, c).error))
    ensures RequireAdmin(h, c).Ok? && RequireAdmin(h, c).value.sub == id ==> r == Answer(t, Err(SelfDelete))
    ensures RequireAdmin(h, c).Ok? && RequireAdmin(h, c).value.sub != id && !HasId(t, id)
      ==> r.response == Err(UserNotFound)
    ensures r.response.Ok? <==> RequireAdmin(h, c).Ok? && RequireAdmin(h, c).value.sub != id && HasId(t, id)
    ensures r.response.Ok? ==> !HasId(r.table, id) && forall row :: row in r.table <==> row in t && row.id != id
    ensures r.response.Err? ==> r.table == t
    ensures Valid(t) ==> Valid(r.table)
  {
    match RequireAdmin(h, c)
    case Err(e) => Answer(t, Err(e))
    case Ok(claims) =>
      if claims.sub == id then Answer(t, Err(SelfDelete))
      else
        var reply := DeleteUser(t, id);
        if !reply.result.value then
          assert reply.table == t by { DeleteNothing(t, id); }
          Answer(reply.table, Err(UserNotFound))
        else Answer(reply.table, Ok(()))
  }

  lemma DeleteNothing(t: Table, id: string)
    requires !HasId(t, id)
    ensures DeleteUser(t, id).table == t
  {
    WithoutKeepsAll(t, id);
  }
}
